=== FILE: README.md ===
# Lux Transition Engine — a Dafny model

This project models the core of the daylux light server: the service that
drives two PWM channels, a warm-white one and a cold-white one, so that
together they give a requested colour temperature (in kelvin) and intensity
(in percent). It models four things:

- how a temperature maps to a warm/cold duty-cycle pair, and how such a pair
  maps back to a temperature (`getPwmFromTemperature`, `getTemperatureFromPwm`);
- the two rounding clamps;
- reading the current Lux back from the pins (`getLux`);
- setting a new Lux (`setLux`): either at once, or as an eased transition of
  frames, one frame every `frameDuration` ms. A newer request cancels an
  older one through a work id.

It also models the mock GPIO pin the server uses off the Raspberry Pi, and
the generic `clamp` helper.

Modules, one per concern:

- `Wrappers`: `Option` and `Result`.
- `Rounding`: `Math.round`, written as `Floor(x + 1/2)`, and a few
  real-arithmetic helpers.
- `ClampUtil`: `clamp` and `clamp.factory` from `packages/server/src/utils/clamp.ts`.
- `GpioMock`: the mock pin of `packages/server/src/pigpio/lib/GpioMock.ts`.
  It is an immutable record. Every setter returns the next record.
- `DutyCycle`: the `dutyCycle` configuration, `clampPwm`,
  `clampTemperature`, and the two maps between temperature and duty cycles.
- `LuxEngine`: the service's mutable fields as an immutable `Engine` record,
  and the operations on it:
  - `getPwmDutyCycle`, `stopCurrentDutyCycle` and `getLux`;
  - `setLux`, with its validation, instant path and animated path;
  - one `step` of an animated transition;
  - the timer slot that `prepareNextDutyCycleFrame` fills (`Fire`).
- `Transitions`: runs of the engine under any sequence of requests, reads,
  timer ticks and late frame callbacks. It holds the proofs that:
  - a superseded transition never resolves;
  - no transition resolves twice;
  - a transition left alone resolves after exactly its step count of frames;
  - every frame value lies between the start reading and the target.
- `IntensityReadBack`: what `getLux` reports after an instant `setLux`: the
  temperature at full intensity, and the intensity at the minimum temperature.
- `MockChannel`: the engine's channels backed by mock pins. A mock pin's read
  never throws, and an engine write is the mock's `pwmWrite`.

The model follows the code where the code is surprising:

- **The forward map divides by `minTemperature / 100`, not by the span
  `maxTemperature - minTemperature`.** The two maps are inverse only when the
  span equals the minimum. That holds for the shipped defaults, 3000..6000 K.
  `DutyCycle.AsymmetricSpanMisreadsMidpoint` shows a configuration,
  2000..6000 K, where 4000 K reads back as 6000 K.
- **Even when the span equals the minimum, the round trip is not exact to one
  kelvin.**
  - For integer temperatures the code only guarantees
    span / (2 · pwmRange) + 1/2. That is about 6.4 K for the defaults
    (`DutyCycle.DefaultsRoundTrip`).
  - Requests may carry fractional kelvin. `clampTemperature` rounds them
    first, which costs up to 1/2 more, so the bound becomes
    span / (2 · pwmRange) + 1 (`DutyCycle.RoundTripOfRealTemperature`).
  - With the defaults, 3005.5 K reads back as 3012 K, 6.5 K away
    (`DutyCycle.FractionalTemperatureExceedsIntegerBound`).
  - The model proves these bounds for the two maps. Through `setLux` and
    `getLux` it proves only the integer one.
- **The instant path writes the scaled duty cycles unrounded.**
- **`step` takes the easing at `t` before it advances `t`.** So the first frame
  writes the start reading. With a step count of 1, a transition resolves
  without ever writing its target (`Transitions.FirstFrameWritesStart`).

Configuration values are integers, as the shipped defaults are, and
`pwmRange` is non-negative (see "## Left out"). JavaScript
numbers in a request are modelled as `Number = Finite | NaN | Infinity`, so
that NaN fails every comparison as it does in the range checks. The easing
function (`easeSinInOut`) is a parameter. Where a property needs it, the
parameter must satisfy `EaseOk`: it is 0 at 0 and maps [0, 1] into [0, 1].

## Model

| member | source | states |
|---|---|---|
| ClampUtil.Clamp | packages/server/src/utils/clamp.ts:5-8 | for a proper range the result lies in [min, max]; a value already inside is returned unchanged; for an inverted range the result is min, because `max` is applied last |
| ClampUtil.Factory | packages/server/src/utils/clamp.ts:10 | the function the factory returns agrees with `clamp` on every value |
| ClampUtil.ClampIdempotent | packages/server/src/utils/clamp.ts:5-8 | clamping a clamped value changes nothing |
| ClampUtil.ClampIsNearest | packages/server/src/utils/clamp.ts:5-8 | for a proper range the result is the point of the range nearest the value |
| ClampUtil.ClampMonotone | packages/server/src/utils/clamp.ts:5-8 | clamping preserves order |
| Rounding.Round | packages/server/src/pigpio/pigpio.service.ts:202 | `Math.round` lies within (x − 1/2, x + 1/2], so halves round up |
| Rounding.RoundMonotone | packages/server/src/pigpio/pigpio.service.ts:202 | `Math.round` preserves order |
| Rounding.RoundOfInteger | packages/server/src/pigpio/pigpio.service.ts:202 | `Math.round` leaves integers unchanged |
| GpioMock.New | packages/server/src/pigpio/lib/GpioMock.ts:84-110 | a new pin reads level 0, duty cycle 0, range 0, frequency 31 and pulse width 1500; its mode is the option's mode if given, otherwise OUTPUT |
| GpioMock.DefaultPinIsOutput | packages/server/src/pigpio/lib/GpioMock.ts:94-110 | a pin built without a mode is an OUTPUT pin with range 0 |
| GpioMock.Mode | packages/server/src/pigpio/lib/GpioMock.ts:113-123 | `getMode` reads back the mode set; every other reading is unchanged |
| GpioMock.PullUpDown | packages/server/src/pigpio/lib/GpioMock.ts:126-129 | setting pull-up/down changes nothing observable |
| GpioMock.DigitalWrite | packages/server/src/pigpio/lib/GpioMock.ts:132-142 | `digitalRead` reads back the level written; every other reading is unchanged |
| GpioMock.Trigger | packages/server/src/pigpio/lib/GpioMock.ts:145-148 | a trigger pulse changes nothing observable |
| GpioMock.PwmWrite | packages/server/src/pigpio/lib/GpioMock.ts:151-155 | `getPwmDutyCycle` reads back the duty cycle written; mode, level, pulse width, range and frequency are unchanged |
| GpioMock.HardwarePwmWrite | packages/server/src/pigpio/lib/GpioMock.ts:158-163 | the duty cycle and frequency read back as written; mode, level, pulse width and range are unchanged |
| GpioMock.PwmRange | packages/server/src/pigpio/lib/GpioMock.ts:172-182 | `getPwmRange` reads back the range set; every other reading is unchanged |
| GpioMock.GetPwmRealRange | packages/server/src/pigpio/lib/GpioMock.ts:185-188 | the call hands back the pin itself, unchanged |
| GpioMock.PwmFrequency | packages/server/src/pigpio/lib/GpioMock.ts:191-201 | `getPwmFrequency` reads back the frequency set; every other reading is unchanged |
| GpioMock.ServoWrite | packages/server/src/pigpio/lib/GpioMock.ts:204-214 | the stored pulse width is the request clamped to [500, 2500]: in range it is kept, below it gives 500, above it gives 2500; every other reading is unchanged |
| GpioMock.LastPwmWriteWins | packages/server/src/pigpio/lib/GpioMock.ts:151-155 | two duty-cycle writes in a row leave the same pin as the second write alone |
| GpioMock.PwmWriteOfReadIsIdentity | packages/server/src/pigpio/lib/GpioMock.ts:151-169 | writing back the duty cycle just read leaves the pin unchanged |
| DutyCycle.ClampPwm | packages/server/src/pigpio/pigpio.service.ts:201-203 | the result lies in [0, pwmRange]; it is the rounded value when that is in range, 0 below the range and pwmRange above it |
| DutyCycle.ClampPwmMonotone | packages/server/src/pigpio/pigpio.service.ts:201-203 | `clampPwm` preserves order |
| DutyCycle.ClampTemperature | packages/server/src/pigpio/pigpio.service.ts:206-208 | the result is at least the minimum and, for a proper range, at most the maximum; an in-range rounded value is kept; an inverted range gives the minimum |
| DutyCycle.ClampTemperatureMonotone | packages/server/src/pigpio/pigpio.service.ts:206-208 | `clampTemperature` preserves order |
| DutyCycle.ClampTemperatureNear | packages/server/src/pigpio/pigpio.service.ts:206-208 | clamping moves a value at most 1/2 further from any in-range integer temperature |
| DutyCycle.PwmFromTemperature | packages/server/src/pigpio/pigpio.service.ts:256-267 | both duty cycles lie in [0, pwmRange] and they sum to exactly pwmRange |
| DutyCycle.WarmShare | packages/server/src/pigpio/pigpio.service.ts:259-261 | the unrounded warm share is pwmRange at the minimum temperature and, for a positive minimum, never exceeds pwmRange above it |
| DutyCycle.WarmShareNonIncreasing | packages/server/src/pigpio/pigpio.service.ts:259-261 | for a positive minimum, the unrounded warm share never grows as the clamped temperature grows |
| DutyCycle.WarmNonIncreasing | packages/server/src/pigpio/pigpio.service.ts:256-267 | a warmer request never gets less warm duty cycle, nor more cold duty cycle, than a cooler one |
| DutyCycle.MinimumIsAllWarm | packages/server/src/pigpio/pigpio.service.ts:256-267 | the minimum temperature maps to (pwmRange, 0) |
| DutyCycle.MaximumIsAllColdWhenSpanIsMinimum | packages/server/src/pigpio/pigpio.service.ts:256-267 | when the span equals the minimum, the maximum temperature maps to (0, pwmRange) |
| DutyCycle.WarmShareWhenSpanIsMinimum | packages/server/src/pigpio/pigpio.service.ts:259-261 | when the span equals the minimum, the warm share falls linearly from pwmRange at the minimum to 0 at the maximum |
| DutyCycle.TemperatureFromPwm | packages/server/src/pigpio/pigpio.service.ts:245-253 | (0, 0) reads as the minimum; every result is at least the minimum and, for a proper range, at most the maximum |
| DutyCycle.AllWarmReadsMinimum | packages/server/src/pigpio/pigpio.service.ts:245-253 | a warm-only pair reads as the minimum temperature |
| DutyCycle.AllColdReadsMaximum | packages/server/src/pigpio/pigpio.service.ts:245-253 | a cold-only pair reads as the maximum temperature |
| DutyCycle.TemperatureIsScaleInvariant | packages/server/src/pigpio/pigpio.service.ts:245-253 | scaling both duty cycles by the same positive factor, as the intensity does, leaves the temperature unchanged |
| DutyCycle.FullScaleReadBack | packages/server/src/pigpio/pigpio.service.ts:245-253 | a full-scale pair (w, pwmRange − w) reads as the clamped maximum minus span · w / pwmRange |
| DutyCycle.ForwardWhenSpanIsMinimum | packages/server/src/pigpio/pigpio.service.ts:256-267 | when the span equals the minimum, the warm duty cycle of temperature T is `Math.round` of an exact x in [0, pwmRange] with T = 2 · min − min · x / pwmRange |
| DutyCycle.BackwardWhenSpanIsMinimum | packages/server/src/pigpio/pigpio.service.ts:245-253 | a full-scale pair whose warm duty cycle is within 1/2 of that x reads back within span / (2 · pwmRange) + 1/2 of T |
| DutyCycle.RoundTripWhenSpanIsMinimum | packages/server/src/pigpio/pigpio.service.ts:245-267 | when the span equals the minimum, any integer temperature in range reads back through the two maps within span / (2 · pwmRange) + 1/2 of itself |
| DutyCycle.AsymmetricSpanMisreadsMidpoint | packages/server/src/pigpio/pigpio.service.ts:245-267 | with a 2000..6000 K range, 4000 K maps to (0, 255), which reads back as 6000 K |
| DutyCycle.DefaultsSpanIsMinimum | packages/server/src/config/config.defaults.ts:8-12 | the shipped configuration (3000..6000 K, pwmRange 255, 16 ms frames) is valid, and its span equals its minimum |
| DutyCycle.DefaultsRoundTrip | packages/server/src/pigpio/pigpio.service.ts:245-267 | with the shipped configuration, every integer temperature in 3000..6000 K reads back through the two maps within 3000 / 510 + 1/2 K |
| DutyCycle.RoundTripOfRealTemperature | packages/server/src/pigpio/pigpio.service.ts:245-267 | when the span equals the minimum, any real temperature in range reads back through the two maps within span / (2 · pwmRange) + 1 of itself |
| DutyCycle.FractionalTemperatureExceedsIntegerBound | packages/server/src/pigpio/pigpio.service.ts:245-267 | with the shipped configuration, 3005.5 K maps to (254, 1) and reads back as 3012 K, beyond the integer-temperature bound |
| LuxEngine.Initial | packages/server/src/pigpio/pigpio.service.ts:72-79 | the constructed service has the saved Lux restored, both pins not yet readable as PWM, no work id, no pending frame, and no id issued |
| LuxEngine.GetPwmDutyCycle | packages/server/src/pigpio/pigpio.service.ts:184-195 | the reading lies in [0, pwmRange] and is the clamped duty cycle of the resulting channel; a PWM channel is left as it is; a channel whose read throws is preset to the clamped initial value, which is returned |
| LuxEngine.ReadIsStable | packages/server/src/pigpio/pigpio.service.ts:184-195 | a second read returns the first read's value and leaves the channel as the first read left it |
| LuxEngine.StopCurrentDutyCycle | packages/server/src/pigpio/pigpio.service.ts:225-234 | the pending frame and the work id are cleared; the channels, lastLux and the id counter are unchanged |
| LuxEngine.RecoveredIntensity | packages/server/src/pigpio/pigpio.service.ts:290-303 | the intensity lies in [0, 100]; it is 0 for a zero current peak or a zero ideal peak, and 100 once the current peak reaches a positive ideal peak; below that it is within 1/2 of 100 · current / ideal |
| LuxEngine.GetLux | packages/server/src/pigpio/pigpio.service.ts:276-307 | the reported intensity and temperature are integers, the intensity lies in [0, 100], and the temperature lies in the configured range; the duration is 0; two dark channels read as (minimum, 0); a channel that could not be read is preset to duty cycle 0; nothing else changes |
| LuxEngine.Validate | packages/server/src/pigpio/pigpio.service.ts:324-335 | a request is accepted if and only if both its temperature and intensity are finite and in range; the temperature is checked first, so an out-of-range temperature is always the error reported |
| LuxEngine.IsInstant | packages/server/src/pigpio/pigpio.service.ts:350 | a request takes the instant path when its duration is absent or 0 |
| LuxEngine.EffectiveDuration | packages/server/src/pigpio/pigpio.service.ts:359 | the animated duration is the request's duration, raised to one frame when it is shorter |
| LuxEngine.StepCount | packages/server/src/pigpio/pigpio.service.ts:383 | the step count is `Math.round(duration / frameDuration)` and is at least 1 |
| LuxEngine.Target | packages/server/src/pigpio/pigpio.service.ts:343-347 | for a non-negative intensity, both scaled target duty cycles are non-negative |
| LuxEngine.SetLux | packages/server/src/pigpio/pigpio.service.ts:317-440 | a request is rejected, with the validation error and no state change, if and only if it fails validation. An accepted request saves itself as lastLux and cancels the running transition. An instant request writes the unrounded scaled target and answers with duration 0. An animated request reads both channels; it answers at once exactly when neither channel would move; otherwise it takes a fresh id from the counter and installs a first frame with the start readings, differences and step count |
| LuxEngine.Progress | packages/server/src/pigpio/pigpio.service.ts:385-401 | t is the frame index times 1 / stepCount, and lies in [0, 1) while frames remain |
| LuxEngine.FrameValue | packages/server/src/pigpio/pigpio.service.ts:405 | a frame's duty cycle lies in [0, pwmRange] |
| LuxEngine.Step | packages/server/src/pigpio/pigpio.service.ts:393-433 | a frame whose id is no longer current does nothing. Otherwise a channel is written if and only if its difference is non-zero and its eased value differs from the last value written. The transition resolves with its response, clearing the work, if and only if this was its last frame; otherwise the next frame is scheduled: the same transition one frame on, remembering the values just written |
| LuxEngine.Fire | packages/server/src/pigpio/pigpio.service.ts:237-239 | when the frame timer fires, an empty slot does nothing, and a pending frame leaves the slot and runs as one step |
| Transitions.InvPreservedByEvent | packages/server/src/pigpio/pigpio.service.ts:211-239 | every request, read, tick or late frame keeps the engine invariant: a frame is pending exactly when a work id is set, and under that id |
| Transitions.EventKeepsIdsIssued | packages/server/src/pigpio/pigpio.service.ts:375-379 | every event keeps all live ids below the id counter and never lowers the counter |
| Transitions.Run | packages/server/src/pigpio/pigpio.service.ts:211-239 | over any run of events the engine invariant is kept, every live id stays below the counter, and the counter never decreases |
| Transitions.InitialOk | packages/server/src/pigpio/pigpio.service.ts:220-222 | the constructed service satisfies the engine invariant and has issued no work id |
| Transitions.RunsFromInitial | packages/server/src/pigpio/pigpio.service.ts:211-239 | from the constructed service, any run of events keeps the engine invariant and resolves each work id at most once |
| Transitions.StaleStaysStale | packages/server/src/pigpio/pigpio.service.ts:393-397 | one event neither revives nor resolves a work id that is issued but no longer current or pending |
| Transitions.StaleNeverResolves | packages/server/src/pigpio/pigpio.service.ts:393-397 | a stale work id is never resolved, over any run of events |
| Transitions.NewRequestSupersedes | packages/server/src/pigpio/pigpio.service.ts:337-341 | after an accepted request, every earlier work id is stale |
| Transitions.SupersededTransitionNeverResolves | packages/server/src/pigpio/pigpio.service.ts:211-219 | when a request is accepted while a transition is running, that transition never resolves, whatever events follow, including its own frames already in flight |
| Transitions.ResolvedIsStale | packages/server/src/pigpio/pigpio.service.ts:426-432 | one event resolves at most one transition, and leaves the resolved id stale |
| Transitions.EachTransitionResolvesAtMostOnce | packages/server/src/pigpio/pigpio.service.ts:422-432 | in any run of events, the resolved work ids are pairwise distinct |
| Transitions.UnresolvedBeforeLastFrame | packages/server/src/pigpio/pigpio.service.ts:422-425 | while fewer than stepCount − frame ticks have passed, a transition left alone has resolved nothing and is still pending under its id, k frames further on |
| Transitions.UninterruptedTransitionResolves | packages/server/src/pigpio/pigpio.service.ts:383-433 | a pending transition left alone resolves exactly once, after exactly stepCount − frame ticks, and leaves nothing running; one tick fewer leaves it unresolved and still pending under its id |
| Transitions.FrameValueBetween | packages/server/src/pigpio/pigpio.service.ts:404-420 | for a multiplier in [0, 1], a frame value lies between the start reading and the clamped target |
| Transitions.FrameStaysBetweenStartAndTarget | packages/server/src/pigpio/pigpio.service.ts:399-420 | with a well-formed easing, every value a frame writes lies between the channel's start reading and its clamped target |
| Transitions.FirstFrameWritesStart | packages/server/src/pigpio/pigpio.service.ts:399-401 | the first frame writes exactly the start reading of each moving channel; with a step count of 1 it also resolves the transition |
| Transitions.InstantRequestIsIdempotent | packages/server/src/pigpio/pigpio.service.ts:349-357 | repeating an instant request gives the same state and the same answer |
| Transitions.MidpointAtHalfIntensity | packages/server/src/pigpio/pigpio.service.ts:343-357 | with 3000..6000 K and a pwmRange of 3000, an instant 4500 K at 50 % writes 750 to each channel and answers with duration 0 |
| IntensityReadBack.InstantAtMinimum | packages/server/src/pigpio/pigpio.service.ts:343-352 | an instant request at the minimum temperature writes pwmRange · intensity / 100 to the warm channel and 0 to the cold one |
| IntensityReadBack.WarmOnlyReading | packages/server/src/pigpio/pigpio.service.ts:276-307 | a warm-only pair reads as the minimum temperature, with an intensity within 1/2 of 100 · round(warm) / pwmRange |
| IntensityReadBack.ReadBackAtMinimum | packages/server/src/pigpio/pigpio.service.ts:276-357 | after an instant request at the minimum temperature, `getLux` reports the minimum temperature and the requested intensity, fractional or not, within 50 / pwmRange + 1/2 |
| IntensityReadBack.InstantAtFullIntensity | packages/server/src/pigpio/pigpio.service.ts:343-352 | an instant request at 100 % writes exactly the full-scale pair of its temperature |
| IntensityReadBack.TemperatureReadBackAtFullIntensity | packages/server/src/pigpio/pigpio.service.ts:276-357 | when the span equals the minimum, an instant request at 100 % for an integer temperature T reads back through `getLux` within span / (2 · pwmRange) + 1/2 of T |
| MockChannel.ChannelOf | packages/server/src/pigpio/lib/GpioMock.ts:166-169 | a mock pin is always a readable PWM channel holding its last duty cycle, because the mock's read never throws |
| MockChannel.MockReadIsClampedDuty | packages/server/src/pigpio/pigpio.service.ts:184-195 | reading a mock pin through the engine returns the clamped duty cycle last written, ignores the initial value and presets nothing |
| MockChannel.EngineWriteIsPwmWrite | packages/server/src/pigpio/lib/GpioMock.ts:151-155 | an engine write of a duty cycle is the mock's `pwmWrite` |
| MockChannel.InstantRequestOnMockPins | packages/server/src/pigpio/pigpio.service.ts:349-352 | on mock pins an instant request is a `pwmWrite` of the scaled target to each pin, and the warm pin then reads as the clamped target |

## Left out

- The Solar Planner, the REST controllers, the client and the configuration
  service are outside the engine. Saving `lastLux` is modelled as a field of
  the engine state, not as a write to the configuration file.
- Connector loading (`initConnector`, the Deferred), the pin cache
  (`getPIN`) and the logger are not modelled. They decide which pin object
  the service talks to. `getPIN` also sets the new pin's range to the
  configured `pwmRange` (pigpio.service.ts:175); the model assumes every
  pin's range is that value. Each engine channel is the pin it drives.
- The constructor replays the saved `lastLux` with a duration of 2000 ms
  (pigpio.service.ts:72-88). This is not modelled separately: it is one more
  `setLux` request, which the model covers.
- Timers are a one-frame slot, `pending`. `Fire` runs the frame in the slot.
  Wall-clock time, and the `frameDuration` delay itself, are not modelled.
- Work ids come from a counter. The source draws them with `Math.random()`.
  The model therefore assumes ids never collide. Collisions are possible in
  the source, but extremely unlikely.
- `easeSinInOut` comes from a library this model does not include. It is a
  parameter. The properties that need it assume only that it is 0 at 0 and
  maps [0, 1] into [0, 1].
- Floating point is not modelled. Duty cycles, temperatures and `t` are exact
  reals. `Math.round` is `Floor(x + 1/2)`.
- NaN and infinite durations are not modelled. `duration` is absent or a
  finite number. A non-number duration behaves like an absent one, and is
  modelled as absent.
- Three parts of the mock are left out: `on` handler registration,
  `removeAllListeners`, and the mock's logging. The mock keeps no listeners,
  so none of them changes the pin's state.
- A pin write on real hardware can fail. The model assumes every write
  succeeds.
- LuxEngine.Step: a transition resolves when `frame + 1 >= stepCount`, which is
  the exact-arithmetic reading of `t < 1`. The source adds `1 / stepCount` in
  floating point, so it may run one frame more or fewer.
- DutyCycle.RoundTripWhenSpanIsMinimum: the round trip is proved only when
  the span equals the minimum. The bound is span / (2 · pwmRange) + 1/2 for
  integer temperatures, and one more 1/2 for fractional ones
  (`RoundTripOfRealTemperature`).
  For other spans, the code's maps are not inverse, as
  `AsymmetricSpanMisreadsMidpoint` shows.
- LuxEngine.SetLux: the model does not claim that a finished transition ends
  exactly at its target. The easing is taken before `t` advances, so the last
  frame writes the value at `t = (stepCount − 1) / stepCount`, not at 1.
- IntensityReadBack.ReadBackAtMinimum: the intensity read-back is proved only
  at the minimum temperature. There the cold channel is 0, so the larger
  channel is the warm one.
- LuxEngine.GetLux: its contract gives bounds and the dark case. What it
  recovers is proved in two places. The temperature is proved after an instant
  request at full intensity, when the span equals the minimum
  (`TemperatureReadBackAtFullIntensity`, for integer temperatures). The intensity is proved after an
  instant request at the minimum temperature (`ReadBackAtMinimum`). Anywhere
  else, the two rounded channels and the asymmetric span make the read-back
  intensity depend on both roundings at once. No bound is claimed there.
- DutyCycle.Valid: the model requires `minTemperature != 0` and
  `frameDuration > 0`, and every configuration value is an integer. The
  configuration endpoint stores any value, and the source behaves
  differently for these:
  - With a fractional minimum or maximum temperature, `clampTemperature`
    can return that fractional bound; the model's `int` fields cannot hold
    it.
  - With `minTemperature = 0`, the forward map divides by zero. The warm share
    becomes infinite or NaN before it is clamped.
  - With `frameDuration = 0`, `Math.round(duration / 0)` is Infinity, the
    increment of `t` is 0, and `t < 1` never fails. The transition runs a
    frame every tick forever, writes only on the first (the eased value
    stays at the start reading), and never resolves.
  - `pwmRange` is a `nat`, so a negative range is not modelled either. With a
    negative range, `clampPwm` returns 0 for every input, because the lower
    bound 0 is applied last. The cold duty cycle `pwmRange - warm` is then
    negative.

  None of these cases is modelled.

=== FILE: clamp.dfy ===
/** The `clamp` utility of packages/server/src/utils/clamp.ts. */
module ClampUtil {
  import opened Rounding

  /** `Math.min` on two numbers. */
  function Min(a: real, b: real): real {
    if a <= b then a else b
  }

  /** `Math.max` on two numbers. */
  function Max(a: real, b: real): real {
    if a >= b then a else b
  }

  /**
   * `clamp([min, max], value)`: the upper bound is applied first and the
   * lower bound last, so an inverted range yields its `min`.
   */
  function Clamp(range: (real, real), value: real): (r: real)
    ensures range.0 <= range.1 ==> range.0 <= r <= range.1
    ensures range.0 <= value <= range.1 ==> r == value
    ensures range.1 < range.0 ==> r == range.0
  {
    var (min, max) := range;
    Max(Min(value, max), min)
  }

  /** `clamp.factory(range)`: the clamp with its range fixed in advance. */
  function Factory(range: (real, real)): (f: real -> real)
    ensures forall v :: f(v) == Clamp(range, v)
  {
    v => Clamp(range, v)
  }

  /** Clamping twice is clamping once, whatever the range. */
  lemma ClampIdempotent(range: (real, real), value: real)
    ensures Clamp(range, Clamp(range, value)) == Clamp(range, value)
  {
  }

  /**
   * For a proper range the clamp is the point of the range nearest to the
   * value: an independent characterisation of Max(Min(v, max), min).
   */
  lemma ClampIsNearest(range: (real, real), value: real, x: real)
    requires range.0 <= range.1
    requires range.0 <= x <= range.1
    ensures Distance(Clamp(range, value), value) <= Distance(x, value)
  {
  }

  /** The clamp is monotone in the value. */
  lemma ClampMonotone(range: (real, real), a: real, b: real)
    requires a <= b
    ensures Clamp(range, a) <= Clamp(range, b)
  {
  }
}

=== FILE: duty_cycle.dfy ===
/**
 * The duty-cycle side of packages/server/src/pigpio/pigpio.service.ts: the
 * configuration it reads, the two rounding clamps, and the two maps between
 * a colour temperature and the warm/cold duty-cycle pair.
 */
module DutyCycle {
  import opened Rounding

  /** The `dutyCycle` configuration group the service reads at construction. */
  datatype Config = Config(
    minTemperature: int,
    maxTemperature: int,
    pwmRange: nat,
    frameDuration: int)

  /** The shipped defaults (config.defaults.ts). */
  const Defaults: Config := Config(3000, 6000, 255, 16)

  /**
   * What the service's arithmetic needs of its configuration: the forward map
   * divides by `minTemperature / 100` and the step count by `frameDuration`.
   */
  predicate Valid(c: Config) {
    c.minTemperature != 0 && c.frameDuration > 0
  }

  /** A warm/cold duty-cycle pair. */
  datatype DutyPair = DutyPair(warm: int, cold: int)

  /** `clampPwm`: round, then bound to [0, pwmRange] (upper bound first). */
  function ClampPwm(c: Config, value: real): (r: int)
    ensures 0 <= r <= c.pwmRange
    ensures 0 <= Round(value) <= c.pwmRange ==> r == Round(value)
    ensures Round(value) < 0 ==> r == 0
    ensures Round(value) > c.pwmRange ==> r == c.pwmRange
  {
    var rounded := Round(value);
    var capped := if rounded <= c.pwmRange then rounded else c.pwmRange;
    if capped >= 0 then capped else 0
  }

  /**
   * `clampTemperature`: round, then bound above by the maximum and below by
   * the minimum; the lower bound is applied last, so it wins when the
   * configured range is inverted.
   */
  function ClampTemperature(c: Config, value: real): (r: int)
    ensures r >= c.minTemperature
    ensures c.minTemperature <= c.maxTemperature ==> r <= c.maxTemperature
    ensures c.minTemperature <= Round(value) <= c.maxTemperature ==> r == Round(value)
    ensures c.maxTemperature < c.minTemperature ==> r == c.minTemperature
  {
    var rounded := Round(value);
    var capped := if rounded <= c.maxTemperature then rounded else c.maxTemperature;
    if capped >= c.minTemperature then capped else c.minTemperature
  }

  lemma ClampPwmMonotone(c: Config, a: real, b: real)
    requires a <= b
    ensures ClampPwm(c, a) <= ClampPwm(c, b)
  {
    RoundMonotone(a, b);
  }

  lemma ClampTemperatureMonotone(c: Config, a: real, b: real)
    requires a <= b
    ensures ClampTemperature(c, a) <= ClampTemperature(c, b)
  {
    RoundMonotone(a, b);
  }

  /**
   * The unrounded warm duty cycle for an already clamped temperature. The
   * distance from the minimum is measured in hundredths of the MINIMUM
   * temperature, not of the configured span.
   */
  function WarmShare(c: Config, clamped: int): (r: real)
    requires c.minTemperature != 0
    ensures clamped == c.minTemperature ==> r == c.pwmRange as real
    ensures c.minTemperature > 0 && clamped >= c.minTemperature ==> r <= c.pwmRange as real
  {
    var steps := (clamped - c.minTemperature) as real / (c.minTemperature as real / 100.0);
    assert c.minTemperature > 0 && clamped >= c.minTemperature ==> steps >= 0.0 by {
      if c.minTemperature > 0 && clamped >= c.minTemperature {
        assert steps * (c.minTemperature as real / 100.0) == (clamped - c.minTemperature) as real;
      }
    }
    assert c.minTemperature > 0 && clamped >= c.minTemperature ==>
             (c.pwmRange as real / 100.0) * steps >= 0.0 by {
      if c.minTemperature > 0 && clamped >= c.minTemperature {
        MulNonNegative(c.pwmRange as real / 100.0, steps);
      }
    }
    (c.pwmRange as real / 100.0) * (100.0 - steps)
  }

  /** `getPwmFromTemperature`: the full-scale warm/cold split of a temperature. */
  function PwmFromTemperature(c: Config, temperature: real): (p: DutyPair)
    requires c.minTemperature != 0
    ensures 0 <= p.warm <= c.pwmRange && 0 <= p.cold <= c.pwmRange
    ensures p.warm + p.cold == c.pwmRange
  {
    var warm := ClampPwm(c, WarmShare(c, ClampTemperature(c, temperature)));
    DutyPair(warm, c.pwmRange - warm)
  }

  /**
   * `getTemperatureFromPwm`: (0, 0) reads as the minimum temperature;
   * otherwise the cold fraction of the pair is mapped linearly onto the
   * configured span and clamped. The requires excludes the pairs whose sum is
   * 0 without both being 0, where the source divides by zero.
   */
  function TemperatureFromPwm(c: Config, warm: real, cold: real): (r: int)
    requires warm + cold == 0.0 ==> warm == 0.0
    ensures warm == 0.0 && cold == 0.0 ==> r == c.minTemperature
    ensures r >= c.minTemperature
    ensures c.minTemperature <= c.maxTemperature ==> r <= c.maxTemperature
  {
    if warm == 0.0 && cold == 0.0 then
      c.minTemperature
    else
      var coldComponent := 1.0 - warm / (warm + cold);
      ClampTemperature(c, c.minTemperature as real
                          + (c.maxTemperature - c.minTemperature) as real * coldComponent)
  }

  /** The warm share falls as the (clamped) temperature rises. */
  lemma WarmShareNonIncreasing(c: Config, k1: int, k2: int)
    requires c.minTemperature > 0
    requires k1 <= k2
    ensures WarmShare(c, k2) <= WarmShare(c, k1)
  {
    var unit := c.minTemperature as real / 100.0;
    var a := (k1 - c.minTemperature) as real;
    var b := (k2 - c.minTemperature) as real;
    assert a / unit <= b / unit by {
      assert b / unit - a / unit == (b - a) / unit;
    }
    var scale := c.pwmRange as real / 100.0;
    assert scale * (100.0 - b / unit) <= scale * (100.0 - a / unit) by {
      assert scale * (100.0 - a / unit) - scale * (100.0 - b / unit)
          == scale * (b / unit - a / unit);
    }
  }

  /** The warm duty cycle is non-increasing in the requested temperature. */
  lemma WarmNonIncreasing(c: Config, t1: real, t2: real)
    requires c.minTemperature > 0
    requires t1 <= t2
    ensures PwmFromTemperature(c, t2).warm <= PwmFromTemperature(c, t1).warm
    ensures PwmFromTemperature(c, t1).cold <= PwmFromTemperature(c, t2).cold
  {
    ClampTemperatureMonotone(c, t1, t2);
    var k1 := ClampTemperature(c, t1);
    var k2 := ClampTemperature(c, t2);
    WarmShareNonIncreasing(c, k1, k2);
    ClampPwmMonotone(c, WarmShare(c, k2), WarmShare(c, k1));
  }

  /** At the minimum temperature only the warm channel is driven, fully. */
  lemma MinimumIsAllWarm(c: Config)
    requires c.minTemperature != 0
    ensures PwmFromTemperature(c, c.minTemperature as real) == DutyPair(c.pwmRange, 0)
  {
    RoundOfInteger(c.minTemperature);
    var k := ClampTemperature(c, c.minTemperature as real);
    assert k == c.minTemperature;
    assert WarmShare(c, k) == c.pwmRange as real;
    RoundOfInteger(c.pwmRange);
  }

  /**
   * When the span equals the minimum (as in the defaults), the maximum
   * temperature drives only the cold channel.
   */
  lemma MaximumIsAllColdWhenSpanIsMinimum(c: Config)
    requires c.minTemperature > 0
    requires c.maxTemperature - c.minTemperature == c.minTemperature
    ensures PwmFromTemperature(c, c.maxTemperature as real) == DutyPair(0, c.pwmRange)
  {
    RoundOfInteger(c.maxTemperature);
    var k := ClampTemperature(c, c.maxTemperature as real);
    assert k == c.maxTemperature;
    var unit := c.minTemperature as real / 100.0;
    assert (k - c.minTemperature) as real / unit == 100.0 by {
      assert (k - c.minTemperature) as real == 100.0 * unit;
    }
    assert WarmShare(c, k) == 0.0;
    RoundOfInteger(0);
  }

  /** A pure warm pair reads as the minimum temperature. */
  lemma AllWarmReadsMinimum(c: Config, warm: real)
    requires warm > 0.0
    ensures TemperatureFromPwm(c, warm, 0.0) == c.minTemperature
  {
    assert warm / (warm + 0.0) == 1.0;
    RoundOfInteger(c.minTemperature);
  }

  /** A pure cold pair reads as the maximum temperature (for a proper range). */
  lemma AllColdReadsMaximum(c: Config, cold: real)
    requires cold > 0.0
    requires c.minTemperature <= c.maxTemperature
    ensures TemperatureFromPwm(c, 0.0, cold) == c.maxTemperature
  {
    RoundOfInteger(c.maxTemperature);
  }

  /**
   * Scaling both channels by one positive factor keeps their ratio and so
   * the temperature read from them: this is what lets an intensity scale the
   * pair without moving its temperature.
   */
  lemma TemperatureIsScaleInvariant(c: Config, warm: real, cold: real, k: real)
    requires warm >= 0.0 && cold >= 0.0
    requires k > 0.0
    ensures TemperatureFromPwm(c, k * warm, k * cold) == TemperatureFromPwm(c, warm, cold)
  {
    if warm == 0.0 && cold == 0.0 {
    } else {
      var s := warm + cold;
      assert s > 0.0;
      var q := warm / s;
      assert warm == q * s;
      assert k * warm + k * cold == k * s;
      assert k * warm == q * (k * s);
      assert (k * warm) / (k * warm + k * cold) == q;
    }
  }

  /** With span == minimum, the warm share is linear in the distance to the maximum. */
  lemma WarmShareWhenSpanIsMinimum(c: Config, t: int)
    requires c.minTemperature > 0
    requires c.maxTemperature - c.minTemperature == c.minTemperature
    ensures WarmShare(c, t) * c.minTemperature as real
         == c.pwmRange as real * (c.maxTemperature - t) as real
  {
    var min := c.minTemperature as real;
    var unit := min / 100.0;
    var d := (t - c.minTemperature) as real;
    assert (d / unit) * min == 100.0 * d by {
      assert (d / unit) * unit == d;
    }
    var range := c.pwmRange as real;
    assert WarmShare(c, t) * min == (range / 100.0) * (100.0 * min - 100.0 * d);
  }

  /** A full-scale pair (w, pwmRange - w) reads as max - span * w / pwmRange, clamped. */
  lemma FullScaleReadBack(c: Config, w: int, value: real)
    requires 0 <= w <= c.pwmRange && c.pwmRange > 0
    requires value == c.maxTemperature as real
                      - (c.maxTemperature - c.minTemperature) as real * (w as real / c.pwmRange as real)
    ensures TemperatureFromPwm(c, w as real, (c.pwmRange - w) as real) == ClampTemperature(c, value)
  {
    var range := c.pwmRange as real;
    assert w as real + (c.pwmRange - w) as real == range;
  }

  lemma SpanIsMinimumForm(c: Config, q: real)
    requires c.maxTemperature - c.minTemperature == c.minTemperature
    ensures c.maxTemperature as real - (c.maxTemperature - c.minTemperature) as real * q
         == 2.0 * c.minTemperature as real - c.minTemperature as real * q
  {
  }

  /** Rounding and then clamping to a range containing t moves at most 1/2 further from t. */
  lemma ClampTemperatureNear(c: Config, value: real, t: int)
    requires c.minTemperature <= t <= c.maxTemperature
    ensures Distance(ClampTemperature(c, value) as real, t as real) <= Distance(value, t as real) + 0.5
  {
  }

  /** Solving x * min == range * (max - t) for t, with t in [min, 2 * min]. */
  lemma SolveWarmShare(min: real, range: real, x: real, t: real)
    requires min > 0.0 && range > 0.0
    requires min <= t <= 2.0 * min
    requires x * min == range * (2.0 * min - t)
    ensures 0.0 <= x <= range
    ensures t == 2.0 * min - min * (x / range)
  {
    var ratio := x / range;
    assert ratio * range == x;
    assert ratio * min == 2.0 * min - t by {
      assert ratio * range * min == range * (2.0 * min - t);
    }
    assert 0.0 <= ratio <= 1.0 by {
      assert (1.0 - ratio) * min == t - min;
      assert ratio * min == 2.0 * min - t;
    }
    assert x <= range by {
      assert range - x == (1.0 - ratio) * range;
      MulNonNegative(1.0 - ratio, range);
    }
  }

  /** A warm duty cycle off by at most 1/2 moves the read-back by at most min / (2 * range). */
  lemma ReadBackError(min: real, range: real, x: real, w: real, value: real, t: real)
    requires min > 0.0 && range > 0.0
    requires -0.5 <= x - w <= 0.5
    requires value == 2.0 * min - min * (w / range)
    requires t == 2.0 * min - min * (x / range)
    ensures Distance(value, t) <= min / (2.0 * range)
  {
    var k := min / range;
    var err := k * (x - w);
    assert value - t == err by {
      assert min * (x / range) == k * x;
      assert min * (w / range) == k * w;
    }
    ScaleBound(k, x - w, 0.5);
    assert k * 0.5 == min / (2.0 * range);
    DistanceWithin(value, t, err, min / (2.0 * range));
  }

  /** The forward half of the round trip: the warm duty cycle is the rounded share x. */
  lemma ForwardWhenSpanIsMinimum(c: Config, t: int) returns (x: real)
    requires c.minTemperature > 0 && c.pwmRange > 0
    requires c.maxTemperature - c.minTemperature == c.minTemperature
    requires c.minTemperature <= t <= c.maxTemperature
    ensures 0.0 <= x <= c.pwmRange as real
    ensures t as real == 2.0 * c.minTemperature as real
                         - c.minTemperature as real * (x / c.pwmRange as real)
    ensures PwmFromTemperature(c, t as real).warm == Round(x)
  {
    RoundOfInteger(t);
    assert ClampTemperature(c, t as real) == t;
    x := WarmShare(c, t);
    WarmShareWhenSpanIsMinimum(c, t);
    SolveWarmShare(c.minTemperature as real, c.pwmRange as real, x, t as real);
    RoundWithin(x, 0, c.pwmRange);
  }

  /** The backward half: a full-scale pair whose warm part is within 1/2 of x reads back near t. */
  lemma BackwardWhenSpanIsMinimum(c: Config, t: int, x: real, w: int)
    requires c.minTemperature > 0 && c.pwmRange > 0
    requires c.maxTemperature - c.minTemperature == c.minTemperature
    requires c.minTemperature <= t <= c.maxTemperature
    requires 0 <= w <= c.pwmRange
    requires -0.5 <= x - w as real <= 0.5
    requires t as real == 2.0 * c.minTemperature as real
                          - c.minTemperature as real * (x / c.pwmRange as real)
    ensures Distance(TemperatureFromPwm(c, w as real, (c.pwmRange - w) as real) as real, t as real)
         <= c.minTemperature as real / (2.0 * c.pwmRange as real) + 0.5
  {
    var min := c.minTemperature as real;
    var range := c.pwmRange as real;
    var q := w as real / range;
    var value := 2.0 * min - min * q;
    SpanIsMinimumForm(c, q);
    FullScaleReadBack(c, w, value);
    ReadBackError(min, range, x, w as real, value, t as real);
    ClampTemperatureNear(c, value, t);
  }

  /**
   * When the span equals the minimum, reading back the full-scale pair of an
   * integer temperature T in range gives T up to span / (2 * pwmRange) + 1/2:
   * the first term is the rounding of the warm duty cycle magnified by
   * span / pwmRange, the second the rounding of the temperature itself.
   */
  lemma RoundTripWhenSpanIsMinimum(c: Config, t: int)
    requires c.minTemperature > 0 && c.pwmRange > 0
    requires c.maxTemperature - c.minTemperature == c.minTemperature
    requires c.minTemperature <= t <= c.maxTemperature
    ensures var p := PwmFromTemperature(c, t as real);
            var back := TemperatureFromPwm(c, p.warm as real, p.cold as real);
            Distance(back as real, t as real)
              <= (c.maxTemperature - c.minTemperature) as real / (2.0 * c.pwmRange as real) + 0.5
  {
    var x := ForwardWhenSpanIsMinimum(c, t);
    var p := PwmFromTemperature(c, t as real);
    BackwardWhenSpanIsMinimum(c, t, x, p.warm);
  }

  /**
   * The round trip for any real temperature in range, as the API accepts
   * fractional kelvin: `clampTemperature` first rounds it to an integer, which
   * costs up to 1/2 more than the integer bound.
   */
  lemma RoundTripOfRealTemperature(c: Config, t: real)
    requires c.minTemperature > 0 && c.pwmRange > 0
    requires c.maxTemperature - c.minTemperature == c.minTemperature
    requires c.minTemperature as real <= t <= c.maxTemperature as real
    ensures var p := PwmFromTemperature(c, t);
            var back := TemperatureFromPwm(c, p.warm as real, p.cold as real);
            Distance(back as real, t)
              <= (c.maxTemperature - c.minTemperature) as real / (2.0 * c.pwmRange as real) + 1.0
  {
    var n := Round(t);
    RoundWithin(t, c.minTemperature, c.maxTemperature);
    RoundOfInteger(n);
    assert ClampTemperature(c, t) == n == ClampTemperature(c, n as real);
    assert PwmFromTemperature(c, t) == PwmFromTemperature(c, n as real);
    RoundTripWhenSpanIsMinimum(c, n);
    var p := PwmFromTemperature(c, t);
    var back := TemperatureFromPwm(c, p.warm as real, p.cold as real);
    DistanceTriangle(back as real, t, n as real);
  }

  /**
   * With the shipped defaults a fractional temperature can miss the integer
   * bound: 3005.5 K maps to (254, 1) and reads back as 3012 K, 6.5 K away.
   */
  lemma FractionalTemperatureExceedsIntegerBound()
    ensures var p := PwmFromTemperature(Defaults, 3005.5);
            && p == DutyPair(254, 1)
            && TemperatureFromPwm(Defaults, p.warm as real, p.cold as real) == 3012
            && Distance(3012.0, 3005.5) > 3000.0 / 510.0 + 0.5
  {
    assert Round(3005.5) == 3006;
    assert ClampTemperature(Defaults, 3005.5) == 3006;
    assert Round(WarmShare(Defaults, 3006)) == 254;
    assert PwmFromTemperature(Defaults, 3005.5) == DutyPair(254, 1);
    assert Round(3000.0 + 3000.0 * (1.0 - 254.0 / 255.0)) == 3012;
  }

  /**
   * The two maps are not inverse when the span differs from the minimum:
   * with a 2000..6000 range the midpoint 4000 reads back as 6000.
   */
  lemma AsymmetricSpanMisreadsMidpoint()
    ensures var c := Config(2000, 6000, 255, 16);
            var p := PwmFromTemperature(c, 4000.0);
            p == DutyPair(0, 255) && TemperatureFromPwm(c, p.warm as real, p.cold as real) == 6000
  {
    var c := Config(2000, 6000, 255, 16);
    RoundOfInteger(4000);
    assert ClampTemperature(c, 4000.0) == 4000;
    assert WarmShare(c, 4000) == 0.0;
    RoundOfInteger(0);
    RoundOfInteger(6000);
  }

  /** The shipped defaults are valid, and their span equals their minimum. */
  lemma DefaultsSpanIsMinimum()
    ensures Valid(Defaults)
    ensures Defaults.maxTemperature - Defaults.minTemperature == Defaults.minTemperature
  {
  }

  /**
   * With the shipped defaults, every integer temperature in 3000..6000 K reads
   * back through the two maps within 3000 / 510 + 1/2 K, about 6.4 K.
   */
  lemma DefaultsRoundTrip(t: int)
    requires Defaults.minTemperature <= t <= Defaults.maxTemperature
    ensures var p := PwmFromTemperature(Defaults, t as real);
            var back := TemperatureFromPwm(Defaults, p.warm as real, p.cold as real);
            Distance(back as real, t as real) <= 3000.0 / 510.0 + 0.5
  {
    DefaultsSpanIsMinimum();
    RoundTripWhenSpanIsMinimum(Defaults, t);
  }
}

=== FILE: gpio_mock.dfy ===
/**
 * The in-memory pin of packages/server/src/pigpio/lib/GpioMock.ts: a record
 * of the values each setter stores and each getter returns. Logging is not
 * modelled; every setter returns the updated pin (the source returns `this`).
 */
module GpioMock {
  import opened Wrappers

  /** The mode a pin gets when none is given, as numbered by the pigpio C library. */
  const OUTPUT: int := 1

  /** Bounds `servoWrite` clamps the pulse width to, in microseconds. */
  const MinPulseWidth: real := 500.0
  const MaxPulseWidth: real := 2500.0

  /** A digital level: the source types it as `1 | 0`. */
  type Level = l: int | l == 0 || l == 1

  /** Construction options; the mock reads only `mode`. */
  datatype GpioOptions = GpioOptions(mode: Option<int>)

  datatype Pin = Pin(
    gpio: int,
    digitalValue: int,
    pwmValue: real,
    frequency: real,
    pwmRange: real,
    servoPulseWidth: real,
    mode: int)

  /**
   * `new GpioMock(gpio, options)`. Every stored value starts at its field
   * initialiser; the mode is OUTPUT unless the options carry a numeric mode.
   */
  function New(gpio: int, options: GpioOptions): (p: Pin)
    ensures GetMode(p) == (if options.mode.Some? then options.mode.value else OUTPUT)
    ensures GetPwmDutyCycle(p) == 0.0 && GetPwmRange(p) == 0.0
    ensures GetServoPulseWidth(p) == 1500.0 && GetPwmFrequency(p) == 31.0
    ensures DigitalRead(p) == 0
  {
    var mode := if options.mode.Some? then options.mode.value else OUTPUT;
    Pin(gpio, 0, 0.0, 31.0, 0.0, 1500.0, mode)
  }

  function GetMode(p: Pin): int { p.mode }

  function DigitalRead(p: Pin): int { p.digitalValue }

  function GetPwmDutyCycle(p: Pin): real { p.pwmValue }

  function GetPwmRange(p: Pin): real { p.pwmRange }

  function GetPwmFrequency(p: Pin): real { p.frequency }

  function GetServoPulseWidth(p: Pin): real { p.servoPulseWidth }

  /** Every getter but the mode, duty cycle, range and frequency ones agree. */
  predicate SameLevelAndPulse(p: Pin, q: Pin) {
    DigitalRead(q) == DigitalRead(p) && GetServoPulseWidth(q) == GetServoPulseWidth(p)
  }

  /** `mode(m)`: `getMode()` then returns m; nothing else changes. */
  function Mode(p: Pin, mode: int): (q: Pin)
    ensures GetMode(q) == mode
    ensures SameLevelAndPulse(p, q) && GetPwmDutyCycle(q) == GetPwmDutyCycle(p)
    ensures GetPwmRange(q) == GetPwmRange(p) && GetPwmFrequency(q) == GetPwmFrequency(p)
  {
    p.(mode := mode)
  }

  /** `pullUpDown(pud)` only logs. */
  function PullUpDown(p: Pin, pud: int): (q: Pin)
    ensures q == p
  {
    p
  }

  /** `digitalWrite(level)`: `digitalRead()` then returns the level. */
  function DigitalWrite(p: Pin, level: Level): (q: Pin)
    ensures DigitalRead(q) == level
    ensures GetMode(q) == GetMode(p) && GetPwmDutyCycle(q) == GetPwmDutyCycle(p)
    ensures GetServoPulseWidth(q) == GetServoPulseWidth(p)
    ensures GetPwmRange(q) == GetPwmRange(p) && GetPwmFrequency(q) == GetPwmFrequency(p)
  {
    p.(digitalValue := level)
  }

  /** `trigger(pulseLen, level)` only logs. */
  function Trigger(p: Pin, pulseLen: int, level: int): (q: Pin)
    ensures q == p
  {
    p
  }

  /** `pwmWrite(d)`: `getPwmDutyCycle()` then returns d, never throwing. */
  function PwmWrite(p: Pin, dutyCycle: real): (q: Pin)
    ensures GetPwmDutyCycle(q) == dutyCycle
    ensures GetMode(q) == GetMode(p) && SameLevelAndPulse(p, q)
    ensures GetPwmRange(q) == GetPwmRange(p) && GetPwmFrequency(q) == GetPwmFrequency(p)
  {
    p.(pwmValue := dutyCycle)
  }

  /** `hardwarePwmWrite(f, d)` stores both the duty cycle and the frequency. */
  function HardwarePwmWrite(p: Pin, frequency: real, dutyCycle: real): (q: Pin)
    ensures GetPwmDutyCycle(q) == dutyCycle && GetPwmFrequency(q) == frequency
    ensures GetMode(q) == GetMode(p) && SameLevelAndPulse(p, q)
    ensures GetPwmRange(q) == GetPwmRange(p)
  {
    p.(pwmValue := dutyCycle, frequency := frequency)
  }

  /** `pwmRange(r)`: `getPwmRange()` then returns r. */
  function PwmRange(p: Pin, range: real): (q: Pin)
    ensures GetPwmRange(q) == range
    ensures GetMode(q) == GetMode(p) && SameLevelAndPulse(p, q)
    ensures GetPwmDutyCycle(q) == GetPwmDutyCycle(p) && GetPwmFrequency(q) == GetPwmFrequency(p)
  {
    p.(pwmRange := range)
  }

  /** `getPwmRealRange()` returns the pin itself, not a range. */
  function GetPwmRealRange(p: Pin): (q: Pin)
    ensures q == p
  {
    p
  }

  /** `pwmFrequency(f)`: `getPwmFrequency()` then returns f. */
  function PwmFrequency(p: Pin, frequency: real): (q: Pin)
    ensures GetPwmFrequency(q) == frequency
    ensures GetMode(q) == GetMode(p) && SameLevelAndPulse(p, q)
    ensures GetPwmDutyCycle(q) == GetPwmDutyCycle(p) && GetPwmRange(q) == GetPwmRange(p)
  {
    p.(frequency := frequency)
  }

  /**
   * `servoWrite(w)` stores `Math.min(Math.max(w, 500), 2500)`: the pulse
   * width clamped to [500, 2500], with widths already inside kept as they are.
   */
  function ServoWrite(p: Pin, pulseWidth: real): (q: Pin)
    ensures MinPulseWidth <= GetServoPulseWidth(q) <= MaxPulseWidth
    ensures MinPulseWidth <= pulseWidth <= MaxPulseWidth ==> GetServoPulseWidth(q) == pulseWidth
    ensures pulseWidth < MinPulseWidth ==> GetServoPulseWidth(q) == MinPulseWidth
    ensures pulseWidth > MaxPulseWidth ==> GetServoPulseWidth(q) == MaxPulseWidth
    ensures GetMode(q) == GetMode(p) && DigitalRead(q) == DigitalRead(p)
    ensures GetPwmDutyCycle(q) == GetPwmDutyCycle(p) && GetPwmRange(q) == GetPwmRange(p)
    ensures GetPwmFrequency(q) == GetPwmFrequency(p)
  {
    var raised := if pulseWidth >= MinPulseWidth then pulseWidth else MinPulseWidth;
    var lowered := if raised <= MaxPulseWidth then raised else MaxPulseWidth;
    p.(servoPulseWidth := lowered)
  }

  /** A later write of the duty cycle overrides an earlier one. */
  lemma LastPwmWriteWins(p: Pin, d1: real, d2: real)
    ensures PwmWrite(PwmWrite(p, d1), d2) == PwmWrite(p, d2)
  {
  }

  /** Writing back what was read changes nothing. */
  lemma PwmWriteOfReadIsIdentity(p: Pin)
    ensures PwmWrite(p, GetPwmDutyCycle(p)) == p
  {
  }

  /** A pin built without a mode, read back, is an OUTPUT pin whose range is 0. */
  lemma DefaultPinIsOutput(gpio: int)
    ensures GetMode(New(gpio, GpioOptions(None))) == OUTPUT
    ensures GetPwmRange(New(gpio, GpioOptions(None))) == 0.0
  {
  }
}

=== FILE: lux_engine.dfy ===
/**
 * The Lux Transition Engine of packages/server/src/pigpio/pigpio.service.ts
 * as a state machine: reading a channel, `getLux`, `setLux`, and one tick of
 * the frame loop it schedules. The service's mutable fields become an
 * immutable `Engine` record; every operation returns the next record.
 */
module LuxEngine {
  import opened Wrappers
  import opened Rounding
  import opened DutyCycle

  /** A JavaScript number as far as `setLux`'s range checks can tell them apart. */
  datatype Number = Finite(value: real) | NaN | Infinity(negative: bool)

  /** `x < bound`; every comparison with NaN is false. */
  predicate Below(x: Number, bound: real) {
    match x
    case Finite(v) => v < bound
    case NaN => false
    case Infinity(negative) => negative
  }

  /** `x > bound`; every comparison with NaN is false. */
  predicate Above(x: Number, bound: real) {
    match x
    case Finite(v) => v > bound
    case NaN => false
    case Infinity(negative) => !negative
  }

  /** The rejection test of `setLux`: `isNaN(x) || x < lo || x > hi`. */
  predicate OutOfRange(x: Number, lo: real, hi: real) {
    x.NaN? || Below(x, lo) || Above(x, hi)
  }

  /** A requested Lux; `duration` is absent (None) or a finite number of milliseconds. */
  datatype Lux = Lux(temperature: Number, intensity: Number, duration: Option<real>)

  /** What `getLux` returns and what a `setLux` promise resolves with. */
  datatype LuxResponse = LuxResponse(temperature: real, intensity: real, duration: real)

  /**
   * The two rejections of `setLux`: a BadRequestException with code
   * 'set-lux/temperature-out-of-range', and a plain Error for the intensity.
   */
  datatype LuxError = TemperatureOutOfRange | IntensityOutOfRange

  /**
   * A PWM output as the service sees it: `Unconfigured` when reading its duty
   * cycle throws (the pin is not in PWM mode), otherwise the last value written.
   */
  datatype Channel = Unconfigured | Pwm(duty: real)

  type Positive = n: int | n >= 1 witness 1

  /**
   * The state one animated transition keeps between frames: its id, the
   * response it resolves with, the start reading and difference per channel,
   * the step count, the index of the next frame (so t = frame / stepCount),
   * and the last value written to each channel during this transition.
   */
  datatype Work = Work(
    id: nat,
    reply: LuxResponse,
    startWarm: int,
    startCold: int,
    diffWarm: real,
    diffCold: real,
    stepCount: Positive,
    frame: nat,
    lastWarm: Option<int>,
    lastCold: Option<int>)

  /**
   * The service's mutable state: both channels, the saved `lastLux`, the
   * current work id (`dutyCycleId`), the counter fresh ids are drawn from,
   * and the frame waiting on the timer (`nextDutyCycleFrame`) with its work.
   */
  datatype Engine = Engine(
    warm: Channel,
    cold: Channel,
    lastLux: Option<Lux>,
    workId: Option<nat>,
    nextId: nat,
    pending: Option<Work>)

  /**
   * The service once constructed: the saved Lux restored, both pins fresh
   * outputs whose duty cycle cannot be read yet, no work and no frame.
   */
  function Initial(lastLux: Option<Lux>): (e: Engine)
    ensures e.lastLux == lastLux
    ensures e.warm == Unconfigured && e.cold == Unconfigured
    ensures e.workId == None && e.pending == None
    ensures e.nextId == 0
  {
    Engine(Unconfigured, Unconfigured, lastLux, None, 0, None)
  }

  /** The hardware writes of one frame, per channel. */
  datatype Writes = Writes(warm: Option<real>, cold: Option<real>)

  const NoWrites: Writes := Writes(None, None)

  /** A promise settling to its frame id's response. */
  datatype Resolution = Resolution(workId: nat, response: LuxResponse)

  /** What `setLux` hands back: a settled promise, or one a transition will settle. */
  datatype Reply = Resolved(response: LuxResponse) | Awaiting(workId: nat)

  datatype SetOutcome = SetOutcome(engine: Engine, result: Result<Reply, LuxError>)

  datatype Reading = Reading(value: int, channel: Channel)

  datatype LuxReading = LuxReading(lux: LuxResponse, engine: Engine)

  datatype StepOutcome = StepOutcome(engine: Engine, writes: Writes, resolved: Option<Resolution>)

  /** The value a channel reads as: the clamped duty cycle, or 0 when reading throws. */
  function ReadsAs(c: Config, ch: Channel): int {
    GetPwmDutyCycle(c, ch, 0.0).value
  }

  /**
   * `getPwmDutyCycle(pin, initialValue)`: the clamped duty cycle; when the
   * read throws, the clamped initial value is written to the pin and returned.
   */
  function GetPwmDutyCycle(c: Config, ch: Channel, initial: real): (r: Reading)
    ensures 0 <= r.value <= c.pwmRange
    ensures r.channel.Pwm? && r.value == ClampPwm(c, r.channel.duty)
    ensures ch.Pwm? ==> r.channel == ch
    ensures ch.Unconfigured? ==> r.value == ClampPwm(c, initial)
    ensures ch.Unconfigured? ==> r.channel == Pwm(ClampPwm(c, initial) as real)
  {
    match ch
    case Pwm(duty) => Reading(ClampPwm(c, duty), ch)
    case Unconfigured =>
      var clamped := ClampPwm(c, initial);
      Reading(clamped, Pwm(clamped as real))
  }

  /** A second read returns the first read's value and changes nothing more. */
  lemma ReadIsStable(c: Config, ch: Channel, initial: real, again: real)
    ensures var first := GetPwmDutyCycle(c, ch, initial);
            GetPwmDutyCycle(c, first.channel, again) == first
  {
    var first := GetPwmDutyCycle(c, ch, initial);
    RoundOfInteger(first.value);
  }

  /** `stopCurrentDutyCycle`: drop the pending frame and clear the work id. */
  function StopCurrentDutyCycle(e: Engine): (r: Engine)
    ensures r.workId == None && r.pending == None
    ensures r.warm == e.warm && r.cold == e.cold
    ensures r.lastLux == e.lastLux && r.nextId == e.nextId
  {
    e.(workId := None, pending := None)
  }

  /** The largest of two integers (`Math.max`). */
  function MaxInt(a: int, b: int): int {
    if a >= b then a else b
  }

  /**
   * The intensity `getLux` reports for a current and an ideal peak: their
   * ratio (0 when the ideal peak is 0), capped at 1, as a rounded percentage.
   */
  function RecoveredIntensity(current: int, ideal: int): (r: int)
    requires current >= 0 && ideal >= 0
    ensures 0 <= r <= 100
    ensures current == 0 ==> r == 0
    ensures ideal == 0 ==> r == 0
    ensures ideal > 0 && current >= ideal ==> r == 100
    ensures ideal > 0 && current <= ideal ==>
              100.0 * (current as real / ideal as real) - 0.5 < r as real
              <= 100.0 * (current as real / ideal as real) + 0.5
  {
    var ratio := if ideal != 0 then current as real / ideal as real else 0.0;
    assert ideal > 0 && current >= ideal ==> ratio >= 1.0 by {
      if ideal > 0 {
        assert ratio * ideal as real == current as real;
      }
    }
    var capped := if ratio > 1.0 then 1.0 else ratio;
    RoundWithin(capped * 100.0, 0, 100);
    RoundOfInteger(0);
    RoundOfInteger(100);
    Round(capped * 100.0)
  }

  /**
   * `getLux`: read both channels, take the temperature from their ratio,
   * and the intensity as the larger channel over the larger channel of the
   * full-scale pair for that temperature, capped at 100 %.
   */
  function GetLux(c: Config, e: Engine): (out: LuxReading)
    requires c.minTemperature != 0
    ensures 0.0 <= out.lux.intensity <= 100.0
    ensures out.lux.intensity == out.lux.intensity.Floor as real
    ensures out.lux.temperature == out.lux.temperature.Floor as real
    ensures c.minTemperature as real <= out.lux.temperature
    ensures c.minTemperature <= c.maxTemperature ==> out.lux.temperature <= c.maxTemperature as real
    ensures out.lux.duration == 0.0
    ensures ReadsAs(c, e.warm) == 0 && ReadsAs(c, e.cold) == 0 ==>
              out.lux.temperature == c.minTemperature as real && out.lux.intensity == 0.0
    ensures out.engine.warm.Pwm? && out.engine.cold.Pwm?
    ensures e.warm.Pwm? ==> out.engine.warm == e.warm
    ensures e.cold.Pwm? ==> out.engine.cold == e.cold
    ensures e.warm.Unconfigured? ==> out.engine.warm == Pwm(0.0)
    ensures e.cold.Unconfigured? ==> out.engine.cold == Pwm(0.0)
    ensures out.engine.lastLux == e.lastLux && out.engine.workId == e.workId
    ensures out.engine.nextId == e.nextId && out.engine.pending == e.pending
  {
    var currentWarm := GetPwmDutyCycle(c, e.warm, 0.0);
    var currentCold := GetPwmDutyCycle(c, e.cold, 0.0);
    var temperature := TemperatureFromPwm(c, currentWarm.value as real, currentCold.value as real);
    var ideal := PwmFromTemperature(c, temperature as real);
    var intensity := RecoveredIntensity(MaxInt(currentCold.value, currentWarm.value),
                                        MaxInt(ideal.cold, ideal.warm));
    LuxReading(
      LuxResponse(temperature as real, intensity as real, 0.0),
      e.(warm := currentWarm.channel, cold := currentCold.channel))
  }

  /**
   * The range checks of `setLux`, temperature first: None when the request is
   * accepted, otherwise the error the source throws.
   */
  function Validate(c: Config, lux: Lux): (r: Option<LuxError>)
    ensures r == None <==>
              && lux.temperature.Finite?
              && c.minTemperature as real <= lux.temperature.value <= c.maxTemperature as real
              && lux.intensity.Finite?
              && 0.0 <= lux.intensity.value <= 100.0
    ensures r == Some(TemperatureOutOfRange) <==>
              !(lux.temperature.Finite?
                && c.minTemperature as real <= lux.temperature.value <= c.maxTemperature as real)
  {
    if OutOfRange(lux.temperature, c.minTemperature as real, c.maxTemperature as real) then
      Some(TemperatureOutOfRange)
    else if OutOfRange(lux.intensity, 0.0, 100.0) then
      Some(IntensityOutOfRange)
    else
      None
  }

  /** A request with no duration, or a duration of 0, is applied at once. */
  predicate IsInstant(lux: Lux) {
    lux.duration.None? || lux.duration.value == 0.0
  }

  /** The animated duration: at least one frame. */
  function EffectiveDuration(c: Config, duration: real): (d: real)
    ensures d >= c.frameDuration as real && d >= duration
    ensures d == duration || d == c.frameDuration as real
  {
    if duration >= c.frameDuration as real then duration else c.frameDuration as real
  }

  /** `Math.round(duration / frameDuration)`: at least 1 for a duration of at least one frame. */
  function StepCount(c: Config, duration: real): (n: Positive)
    requires c.frameDuration > 0 && duration >= c.frameDuration as real
    ensures duration / c.frameDuration as real - 0.5 < n as real <= duration / c.frameDuration as real + 0.5
  {
    var frames := duration / c.frameDuration as real;
    assert frames >= 1.0 by {
      assert frames * c.frameDuration as real == duration;
    }
    RoundMonotone(1.0, frames);
    RoundOfInteger(1);
    Round(frames)
  }

  /** The full-scale pair of the requested temperature, scaled by intensity / 100. */
  function Target(c: Config, temperature: real, intensity: real): (p: (real, real))
    requires c.minTemperature != 0
    ensures 0.0 <= intensity ==> 0.0 <= p.0 && 0.0 <= p.1
  {
    var ideal := PwmFromTemperature(c, temperature);
    (ideal.warm as real * (intensity / 100.0), ideal.cold as real * (intensity / 100.0))
  }

  /**
   * `setLux`. A rejected request changes nothing. An accepted one saves
   * itself as `lastLux` and cancels any running transition, then either
   * writes the scaled target at once (instant request), or answers at once
   * because neither channel would move, or installs a fresh work id and a
   * pending first frame.
   */
  function SetLux(c: Config, e: Engine, lux: Lux): (out: SetOutcome)
    requires Valid(c)
    // Rejections, temperature first; nothing changes.
    ensures out.result.Failure? <==> Validate(c, lux).Some?
    ensures out.result.Failure? ==> out.engine == e && out.result.error == Validate(c, lux).value
    // Every accepted request is saved and cancels the running transition.
    ensures out.result.Success? ==> out.engine.lastLux == Some(lux)
    ensures out.result.Success? && out.result.value.Resolved? ==>
              out.engine.workId == None && out.engine.pending == None && out.engine.nextId == e.nextId
    // Instant path: the unrounded scaled target is written to both channels.
    ensures out.result.Success? && IsInstant(lux) ==>
              var target := Target(c, lux.temperature.value, lux.intensity.value);
              && out.result.value == Resolved(LuxResponse(lux.temperature.value, lux.intensity.value, 0.0))
              && out.engine.warm == Pwm(target.0) && out.engine.cold == Pwm(target.1)
    // Animated path: answered at once only when both differences are 0.
    ensures out.result.Success? && !IsInstant(lux) ==>
              var duration := EffectiveDuration(c, lux.duration.value);
              var reply := LuxResponse(lux.temperature.value, lux.intensity.value, duration);
              var target := Target(c, lux.temperature.value, lux.intensity.value);
              var warm := GetPwmDutyCycle(c, e.warm, 0.0);
              var cold := GetPwmDutyCycle(c, e.cold, 0.0);
              && out.engine.warm == warm.channel && out.engine.cold == cold.channel
              && (out.result.value.Resolved? <==>
                    target.0 == warm.value as real && target.1 == cold.value as real)
              && (out.result.value.Resolved? ==> out.result.value.response == reply)
              && (out.result.value.Awaiting? ==>
                    && out.result.value.workId == e.nextId
                    && out.engine.workId == Some(e.nextId)
                    && out.engine.nextId == e.nextId + 1
                    && out.engine.pending == Some(Work(e.nextId, reply, warm.value, cold.value,
                                                       target.0 - warm.value as real,
                                                       target.1 - cold.value as real,
                                                       StepCount(c, duration), 0, None, None)))
  {
    match Validate(c, lux)
    case Some(error) => SetOutcome(e, Failure(error))
    case None =>
      var temperature := lux.temperature.value;
      var intensity := lux.intensity.value;
      var cancelled := StopCurrentDutyCycle(e.(lastLux := Some(lux)));
      var target := Target(c, temperature, intensity);
      if IsInstant(lux) then
        SetOutcome(cancelled.(warm := Pwm(target.0), cold := Pwm(target.1)),
                   Success(Resolved(LuxResponse(temperature, intensity, 0.0))))
      else
        var duration := EffectiveDuration(c, lux.duration.value);
        var currentWarm := GetPwmDutyCycle(c, cancelled.warm, 0.0);
        var currentCold := GetPwmDutyCycle(c, cancelled.cold, 0.0);
        var read := cancelled.(warm := currentWarm.channel, cold := currentCold.channel);
        var warmDifference := target.0 - currentWarm.value as real;
        var coldDifference := target.1 - currentCold.value as real;
        var reply := LuxResponse(temperature, intensity, duration);
        if warmDifference == 0.0 && coldDifference == 0.0 then
          SetOutcome(read, Success(Resolved(reply)))
        else
          var id := e.nextId;
          var work := Work(id, reply, currentWarm.value, currentCold.value,
                           warmDifference, coldDifference, StepCount(c, duration), 0, None, None);
          SetOutcome(read.(workId := Some(id), nextId := id + 1, pending := Some(work)),
                     Success(Awaiting(id)))
  }

  /**
   * The timeline position of a work's next frame, t = frame / stepCount: the
   * sum of `frame` increments of 1 / stepCount, in [0, 1) while frames remain.
   */
  function Progress(w: Work): (t: real)
    ensures t * w.stepCount as real == w.frame as real
    ensures w.frame < w.stepCount ==> 0.0 <= t < 1.0
  {
    var t := w.frame as real / w.stepCount as real;
    assert t * w.stepCount as real == w.frame as real;
    t
  }

  /** The duty cycle a frame computes for one channel: clampPwm(start + diff * multiplier). */
  function FrameValue(c: Config, start: int, diff: real, multiplier: real): (v: int)
    ensures 0 <= v <= c.pwmRange
  {
    ClampPwm(c, start as real + diff * multiplier)
  }

  /**
   * One tick of `step`. A tick whose id is not the current one does nothing.
   * Otherwise the easing is taken at t before t advances; each channel with a
   * non-zero difference is written when its value differs from the last one
   * written in this transition; then either the next frame is scheduled, or,
   * once t reaches 1, the work is cleared and the promise resolves.
   */
  function Step(c: Config, ease: real -> real, e: Engine, w: Work): (s: StepOutcome)
    // A superseded tick writes nothing, schedules nothing, resolves nothing.
    ensures e.workId != Some(w.id) ==> s == StepOutcome(e, NoWrites, None)
    // Writes go to channels with a non-zero difference, and only when the value changed.
    ensures s.writes.warm.Some? <==>
              e.workId == Some(w.id) && w.diffWarm != 0.0
              && Some(FrameValue(c, w.startWarm, w.diffWarm, ease(Progress(w)))) != w.lastWarm
    ensures s.writes.cold.Some? <==>
              e.workId == Some(w.id) && w.diffCold != 0.0
              && Some(FrameValue(c, w.startCold, w.diffCold, ease(Progress(w)))) != w.lastCold
    ensures s.writes.warm.Some? ==>
              s.writes.warm.value == FrameValue(c, w.startWarm, w.diffWarm, ease(Progress(w))) as real
              && s.engine.warm == Pwm(s.writes.warm.value)
    ensures s.writes.cold.Some? ==>
              s.writes.cold.value == FrameValue(c, w.startCold, w.diffCold, ease(Progress(w))) as real
              && s.engine.cold == Pwm(s.writes.cold.value)
    ensures s.writes.warm.None? ==> s.engine.warm == e.warm
    ensures s.writes.cold.None? ==> s.engine.cold == e.cold
    // Resolution exactly when the last frame of the current transition runs.
    ensures s.resolved.Some? <==> e.workId == Some(w.id) && w.frame + 1 >= w.stepCount
    ensures s.resolved.Some? ==>
              s.resolved.value == Resolution(w.id, w.reply)
              && s.engine.workId == None && s.engine.pending == None
    ensures e.workId == Some(w.id) && w.frame + 1 < w.stepCount ==>
              s.engine.workId == e.workId && s.engine.pending.Some?
              && s.engine.pending.value.id == w.id
              && s.engine.pending.value.frame == w.frame + 1
    // The next frame carries the same transition, remembering what was just written.
    ensures e.workId == Some(w.id) && w.frame + 1 < w.stepCount ==>
              s.engine.pending == Some(w.(
                frame := w.frame + 1,
                lastWarm := if s.writes.warm.Some?
                            then Some(FrameValue(c, w.startWarm, w.diffWarm, ease(Progress(w))))
                            else w.lastWarm,
                lastCold := if s.writes.cold.Some?
                            then Some(FrameValue(c, w.startCold, w.diffCold, ease(Progress(w))))
                            else w.lastCold))
    ensures s.engine.lastLux == e.lastLux && s.engine.nextId == e.nextId
  {
    if e.workId != Some(w.id) then
      StepOutcome(e, NoWrites, None)
    else
      var multiplier := ease(Progress(w));
      var warmValue := FrameValue(c, w.startWarm, w.diffWarm, multiplier);
      var coldValue := FrameValue(c, w.startCold, w.diffCold, multiplier);
      var writeWarm := w.diffWarm != 0.0 && Some(warmValue) != w.lastWarm;
      var writeCold := w.diffCold != 0.0 && Some(coldValue) != w.lastCold;
      var writes := Writes(if writeWarm then Some(warmValue as real) else None,
                           if writeCold then Some(coldValue as real) else None);
      var written := e.(warm := if writeWarm then Pwm(warmValue as real) else e.warm,
                        cold := if writeCold then Pwm(coldValue as real) else e.cold);
      var advanced := w.(frame := w.frame + 1,
                         lastWarm := if writeWarm then Some(warmValue) else w.lastWarm,
                         lastCold := if writeCold then Some(coldValue) else w.lastCold);
      if advanced.frame < w.stepCount then
        StepOutcome(written.(pending := Some(advanced)), writes, None)
      else
        StepOutcome(StopCurrentDutyCycle(written), writes, Some(Resolution(w.id, w.reply)))
  }

  /** The timer fires: the pending frame, if any, leaves the slot and runs. */
  function Fire(c: Config, ease: real -> real, e: Engine): (s: StepOutcome)
    ensures e.pending.None? ==> s == StepOutcome(e, NoWrites, None)
    ensures e.pending.Some? ==> s == Step(c, ease, e.(pending := None), e.pending.value)
  {
    match e.pending
    case None => StepOutcome(e, NoWrites, None)
    case Some(w) => Step(c, ease, e.(pending := None), w)
  }

  /** A transition's work as `setLux` builds it: start readings in range, frames left. */
  predicate WorkOk(c: Config, w: Work) {
    && 0 <= w.startWarm <= c.pwmRange
    && 0 <= w.startCold <= c.pwmRange
    && w.frame < w.stepCount
  }

  /**
   * The engine invariant: a transition is running exactly when a frame is
   * pending, the pending frame belongs to the current work id, and that id
   * was drawn from the counter.
   */
  predicate Inv(c: Config, e: Engine) {
    && (e.workId.Some? <==> e.pending.Some?)
    && (e.workId.Some? ==> e.workId.value < e.nextId)
    && (e.pending.Some? ==> e.workId == Some(e.pending.value.id) && WorkOk(c, e.pending.value))
  }

  /** A well-formed easing: 0 at t = 0 and within [0, 1] on [0, 1]. */
  ghost predicate EaseOk(ease: real -> real) {
    && ease(0.0) == 0.0
    && forall t :: 0.0 <= t <= 1.0 ==> 0.0 <= ease(t) <= 1.0
  }
}

=== FILE: mock_channel.dfy ===
/**
 * The engine's channels backed by the mock pin of
 * packages/server/src/pigpio/lib/GpioMock.ts. The mock's duty-cycle read never
 * throws, so a mock pin is always a PWM channel holding its last write.
 */
module MockChannel {
  import GpioMock
  import opened DutyCycle
  import opened LuxEngine

  /** The channel the engine sees when its pin is a mock pin. */
  function ChannelOf(p: GpioMock.Pin): (ch: Channel)
    ensures ch.Pwm? && ch.duty == GpioMock.GetPwmDutyCycle(p)
  {
    Pwm(GpioMock.GetPwmDutyCycle(p))
  }

  /**
   * Reading a mock pin through the engine gives the clamped duty cycle last
   * written to it; the initial value is never used and nothing is preset.
   */
  lemma MockReadIsClampedDuty(c: Config, p: GpioMock.Pin, initial: real)
    ensures GetPwmDutyCycle(c, ChannelOf(p), initial)
            == Reading(ClampPwm(c, GpioMock.GetPwmDutyCycle(p)), ChannelOf(p))
  {
  }

  /** An engine write of a duty cycle is the mock's `pwmWrite`. */
  lemma EngineWriteIsPwmWrite(p: GpioMock.Pin, duty: real)
    ensures ChannelOf(GpioMock.PwmWrite(p, duty)) == Pwm(duty)
  {
  }

  /**
   * An instant request on mock pins leaves each pin holding the scaled target
   * it would read back as, and a later engine read of that pin returns the
   * clamped target.
   */
  lemma InstantRequestOnMockPins(c: Config, e: Engine, lux: Lux, warm: GpioMock.Pin, cold: GpioMock.Pin)
    requires Valid(c) && IsInstant(lux) && Validate(c, lux).None?
    requires e.warm == ChannelOf(warm) && e.cold == ChannelOf(cold)
    ensures var target := Target(c, lux.temperature.value, lux.intensity.value);
            var o := SetLux(c, e, lux);
            && o.engine.warm == ChannelOf(GpioMock.PwmWrite(warm, target.0))
            && o.engine.cold == ChannelOf(GpioMock.PwmWrite(cold, target.1))
            && ReadsAs(c, o.engine.warm) == ClampPwm(c, target.0)
  {
  }
}

=== FILE: read_back.dfy ===
module IntensityReadBack {
  import opened Wrappers
  import opened Rounding
  import opened DutyCycle
  import opened LuxEngine

  /** A duty cycle within 1/2 of range * i / 100 reads as i up to 50 / range percent. */
  lemma PercentError(range: real, i: real, y: real, w: real, p: real)
    requires range > 0.0
    requires y == range * (i / 100.0)
    requires -0.5 <= w - y <= 0.5
    requires p == 100.0 * (w / range)
    ensures Distance(p, i) <= 50.0 / range
  {
    var k := 100.0 / range;
    var d := w - y;
    var err := k * d;
    assert p - i == err by {
      assert k * y == i;
      assert 100.0 * (w / range) == k * w;
    }
    ScaleBound(k, d, 0.5);
    assert k * 0.5 == 50.0 / range;
    DistanceWithin(p, i, err, 50.0 / range);
  }

  /** An instant request at the minimum temperature drives the warm channel alone. */
  lemma InstantAtMinimum(c: Config, e: Engine, intensity: real)
    requires Valid(c)
    requires c.minTemperature <= c.maxTemperature
    requires 0.0 <= intensity <= 100.0
    ensures var o := SetLux(c, e, Lux(Finite(c.minTemperature as real), Finite(intensity), None));
            && o.engine.warm == Pwm(c.pwmRange as real * (intensity / 100.0))
            && o.engine.cold == Pwm(0.0)
  {
    MinimumIsAllWarm(c);
  }

  /**
   * A warm-only pair reads as the minimum temperature, and as the rounded
   * warm duty cycle over pwmRange for the intensity.
   */
  lemma WarmOnlyReading(c: Config, e: Engine, y: real)
    requires Valid(c) && c.pwmRange > 0
    requires 0.0 <= y <= c.pwmRange as real
    requires e.warm == Pwm(y) && e.cold == Pwm(0.0)
    ensures var r := GetLux(c, e).lux;
            && r.temperature == c.minTemperature as real
            && Distance(r.intensity, 100.0 * (Round(y) as real / c.pwmRange as real)) <= 0.5
  {
    RoundWithin(y, 0, c.pwmRange);
    RoundOfInteger(0);
    var w := Round(y);
    assert ClampPwm(c, y) == w;
    assert ClampPwm(c, 0.0) == 0;
    var r := GetLux(c, e).lux;
    if w == 0 {
      assert r.intensity == 0.0 && r.temperature == c.minTemperature as real;
    } else {
      AllWarmReadsMinimum(c, w as real);
      MinimumIsAllWarm(c);
      assert r.temperature == c.minTemperature as real;
      assert r.intensity == RecoveredIntensity(w, c.pwmRange) as real;
    }
  }

  /**
   * An instant request at the minimum temperature reads back through
   * `getLux` as the minimum temperature and the requested intensity, up to
   * 50 / pwmRange + 1/2 percent: the warm channel alone carries the intensity,
   * rounded once when read and once more as a percentage.
   */
  lemma ReadBackAtMinimum(c: Config, e: Engine, intensity: real)
    requires Valid(c) && c.pwmRange > 0
    requires c.minTemperature <= c.maxTemperature
    requires 0.0 <= intensity <= 100.0
    ensures var lux := Lux(Finite(c.minTemperature as real), Finite(intensity), None);
            var r := GetLux(c, SetLux(c, e, lux).engine).lux;
            && r.temperature == c.minTemperature as real
            && Distance(r.intensity, intensity) <= 50.0 / c.pwmRange as real + 0.5
  {
    var lux := Lux(Finite(c.minTemperature as real), Finite(intensity), None);
    var o := SetLux(c, e, lux);
    var range := c.pwmRange as real;
    var i := intensity;
    var y := range * (i / 100.0);
    InstantAtMinimum(c, e, i);
    assert 0.0 <= y <= range by {
      MulNonNegative(range, i / 100.0);
      MulNonNegative(range, 1.0 - i / 100.0);
    }
    WarmOnlyReading(c, o.engine, y);
    var w := Round(y) as real;
    var p := 100.0 * (w / range);
    PercentError(range, i, y, w, p);
    var r := GetLux(c, o.engine).lux;
    DistanceTriangle(r.intensity, i, p);
  }

  /** An instant request at full intensity writes the full-scale pair of its temperature. */
  lemma InstantAtFullIntensity(c: Config, e: Engine, t: real)
    requires Valid(c)
    requires c.minTemperature as real <= t <= c.maxTemperature as real
    ensures var o := SetLux(c, e, Lux(Finite(t), Finite(100.0), None));
            var p := PwmFromTemperature(c, t);
            && o.engine.warm == Pwm(p.warm as real)
            && o.engine.cold == Pwm(p.cold as real)
  {
    assert 100.0 / 100.0 == 1.0;
  }

  /**
   * When the span equals the minimum, an instant request at full intensity
   * for an integer temperature T in range reads back through `getLux` within
   * span / (2 * pwmRange) + 1/2 of T.
   */
  lemma TemperatureReadBackAtFullIntensity(c: Config, e: Engine, t: int)
    requires Valid(c) && c.minTemperature > 0 && c.pwmRange > 0
    requires c.maxTemperature - c.minTemperature == c.minTemperature
    requires c.minTemperature <= t <= c.maxTemperature
    ensures var o := SetLux(c, e, Lux(Finite(t as real), Finite(100.0), None));
            Distance(GetLux(c, o.engine).lux.temperature, t as real)
              <= (c.maxTemperature - c.minTemperature) as real / (2.0 * c.pwmRange as real) + 0.5
  {
    var o := SetLux(c, e, Lux(Finite(t as real), Finite(100.0), None));
    var p := PwmFromTemperature(c, t as real);
    InstantAtFullIntensity(c, e, t as real);
    RoundOfInteger(p.warm);
    RoundOfInteger(p.cold);
    assert GetPwmDutyCycle(c, o.engine.warm, 0.0).value == p.warm;
    assert GetPwmDutyCycle(c, o.engine.cold, 0.0).value == p.cold;
    assert GetLux(c, o.engine).lux.temperature
           == TemperatureFromPwm(c, p.warm as real, p.cold as real) as real;
    RoundTripWhenSpanIsMinimum(c, t);
  }
}

=== FILE: rounding.dfy ===
/** JavaScript's `Math.round` over exact reals. */
module Rounding {

  /** `Math.round(x)`: the nearest integer, with halves rounded towards +infinity. */
  function Round(x: real): (r: int)
    ensures x - 0.5 < r as real <= x + 0.5
  {
    (x + 0.5).Floor
  }

  lemma RoundMonotone(x: real, y: real)
    requires x <= y
    ensures Round(x) <= Round(y)
  {
  }

  lemma RoundOfInteger(n: int)
    ensures Round(n as real) == n
  {
  }

  lemma MulNonNegative(a: real, b: real)
    requires a >= 0.0 && b >= 0.0
    ensures a * b >= 0.0
  {
  }

  /** Scaling an error bounded by b by a factor k >= 0 bounds it by k * b. */
  lemma ScaleBound(k: real, err: real, b: real)
    requires k >= 0.0
    requires -b <= err <= b
    ensures -(k * b) <= k * err <= k * b
  {
    MulNonNegative(k, b - err);
    MulNonNegative(k, err + b);
  }

  /** Rounding a value of [lo, hi] with integer bounds stays in [lo, hi]. */
  lemma RoundWithin(x: real, lo: int, hi: int)
    requires lo as real <= x <= hi as real
    ensures lo <= Round(x) <= hi
  {
  }

  /** The distance |a - b| between two reals. */
  function Distance(a: real, b: real): real {
    if a >= b then a - b else b - a
  }

  lemma DistanceTriangle(a: real, b: real, m: real)
    ensures Distance(a, b) <= Distance(a, m) + Distance(m, b)
  {
  }

  /** An error known to lie in [-bound, bound] bounds the distance. */
  lemma DistanceWithin(a: real, b: real, err: real, bound: real)
    requires a - b == err
    requires -bound <= err <= bound
    ensures Distance(a, b) <= bound
  {
  }
}

=== FILE: transitions.dfy ===
/**
 * Runs of the engine under a sequence of outside events, and the properties
 * of the frame loop: a superseded transition never resolves, each transition
 * resolves at most once, an uninterrupted one resolves after exactly its
 * step count of frames, and every frame stays between start and target.
 */
module Transitions {
  import opened Wrappers
  import opened Rounding
  import opened DutyCycle
  import opened LuxEngine

  /**
   * What can happen to the engine: a `setLux` call, the frame timer firing,
   * a `getLux` call, or a frame callback of some work that was already in
   * flight when it was cancelled.
   */
  datatype Event = Request(lux: Lux) | Tick | Read | LateTick(work: Work)

  datatype Trace = Trace(engine: Engine, resolutions: seq<Resolution>)

  function Resolutions(s: StepOutcome): seq<Resolution> {
    if s.resolved.Some? then [s.resolved.value] else []
  }

  /** The effect of one event. */
  function Apply(c: Config, ease: real -> real, e: Engine, ev: Event): Trace
    requires Valid(c)
  {
    match ev
    case Request(lux) => Trace(SetLux(c, e, lux).engine, [])
    case Tick => var s := Fire(c, ease, e); Trace(s.engine, Resolutions(s))
    case Read => Trace(GetLux(c, e).engine, [])
    case LateTick(w) => var s := Step(c, ease, e, w); Trace(s.engine, Resolutions(s))
  }

  /** Late frames of well-formed work only. */
  predicate LateWorkOk(c: Config, events: seq<Event>) {
    forall i :: 0 <= i < |events| && events[i].LateTick? ==> WorkOk(c, events[i].work)
  }

  /** Every frame callback ever scheduled carries an id drawn from the counter. */
  predicate IdsIssued(e: Engine) {
    && (e.workId.Some? ==> e.workId.value < e.nextId)
    && (e.pending.Some? ==> e.pending.value.id < e.nextId)
  }

  lemma InvPreservedByEvent(c: Config, ease: real -> real, e: Engine, ev: Event)
    requires Valid(c) && Inv(c, e)
    requires ev.LateTick? ==> WorkOk(c, ev.work)
    ensures Inv(c, Apply(c, ease, e, ev).engine)
  {
  }

  lemma EventKeepsIdsIssued(c: Config, ease: real -> real, e: Engine, ev: Event)
    requires Valid(c) && IdsIssued(e)
    ensures IdsIssued(Apply(c, ease, e, ev).engine)
    ensures Apply(c, ease, e, ev).engine.nextId >= e.nextId
  {
  }

  /**
   * The engine invariant holds after any run of events: a transition is
   * running exactly when its frame is pending, under the current id.
   */
  function Run(c: Config, ease: real -> real, e: Engine, events: seq<Event>): (t: Trace)
    requires Valid(c)
    ensures Inv(c, e) && LateWorkOk(c, events) ==> Inv(c, t.engine)
    ensures IdsIssued(e) ==> IdsIssued(t.engine) && t.engine.nextId >= e.nextId
    decreases |events|
  {
    if |events| == 0 then
      Trace(e, [])
    else
      var first := Apply(c, ease, e, events[0]);
      assert IdsIssued(e) ==> IdsIssued(first.engine) && first.engine.nextId >= e.nextId by {
        if IdsIssued(e) {
          EventKeepsIdsIssued(c, ease, e, events[0]);
        }
      }
      assert Inv(c, e) && LateWorkOk(c, events) ==>
               Inv(c, first.engine) && LateWorkOk(c, events[1..]) by {
        if Inv(c, e) && LateWorkOk(c, events) {
          InvPreservedByEvent(c, ease, e, events[0]);
          forall i | 0 <= i < |events[1..]| && events[1..][i].LateTick?
            ensures WorkOk(c, events[1..][i].work)
          {
            assert events[1..][i] == events[i + 1];
          }
        }
      }
      var rest := Run(c, ease, first.engine, events[1..]);
      Trace(rest.engine, first.resolutions + rest.resolutions)
  }

  /** An id is stale once it was issued and is neither current nor pending. */
  predicate Stale(e: Engine, id: nat) {
    && id < e.nextId
    && e.workId != Some(id)
    && (e.pending.Some? ==> e.pending.value.id != id)
  }

  /** One event neither revives a stale id nor resolves it. */
  lemma StaleStaysStale(c: Config, ease: real -> real, e: Engine, id: nat, ev: Event)
    requires Valid(c) && Stale(e, id)
    ensures Stale(Apply(c, ease, e, ev).engine, id)
    ensures forall r | r in Apply(c, ease, e, ev).resolutions :: r.workId != id
  {
  }

  /** A stale transition never resolves, whatever happens afterwards. */
  lemma {:induction false} StaleNeverResolves(c: Config, ease: real -> real, e: Engine, id: nat, events: seq<Event>)
    requires Valid(c) && Stale(e, id)
    ensures forall r | r in Run(c, ease, e, events).resolutions :: r.workId != id
    decreases |events|
  {
    if |events| > 0 {
      var first := Apply(c, ease, e, events[0]);
      StaleStaysStale(c, ease, e, id, events[0]);
      StaleNeverResolves(c, ease, first.engine, id, events[1..]);
    }
  }

  /** A new accepted request makes every earlier transition stale. */
  lemma NewRequestSupersedes(c: Config, e: Engine, lux: Lux, id: nat)
    requires Valid(c) && IdsIssued(e)
    requires id < e.nextId
    requires Validate(c, lux).None?
    ensures Stale(SetLux(c, e, lux).engine, id)
  {
  }

  /**
   * While transition `id` is running, request `b` is accepted: the running
   * transition never settles, whatever events follow, including its own
   * frames already in flight.
   */
  lemma SupersededTransitionNeverResolves(
    c: Config, ease: real -> real, e: Engine, id: nat, b: Lux, events: seq<Event>)
    requires Valid(c) && IdsIssued(e)
    requires e.workId == Some(id)
    requires Validate(c, b).None?
    ensures forall r | r in Run(c, ease, SetLux(c, e, b).engine, events).resolutions :: r.workId != id
  {
    NewRequestSupersedes(c, e, b, id);
    StaleNeverResolves(c, ease, SetLux(c, e, b).engine, id, events);
  }

  /** The ids in a sequence of resolutions are pairwise distinct. */
  predicate DistinctIds(rs: seq<Resolution>) {
    forall i, j | 0 <= i < j < |rs| :: rs[i].workId != rs[j].workId
  }

  /** An event that resolves a transition leaves its id stale. */
  lemma ResolvedIsStale(c: Config, ease: real -> real, e: Engine, ev: Event)
    requires Valid(c) && IdsIssued(e)
    ensures forall r | r in Apply(c, ease, e, ev).resolutions ::
              Stale(Apply(c, ease, e, ev).engine, r.workId)
    ensures |Apply(c, ease, e, ev).resolutions| <= 1
    ensures IdsIssued(Apply(c, ease, e, ev).engine)
  {
  }

  /** No promise resolves twice: every run resolves each work id at most once. */
  lemma {:induction false} EachTransitionResolvesAtMostOnce(
    c: Config, ease: real -> real, e: Engine, events: seq<Event>)
    requires Valid(c) && IdsIssued(e)
    ensures DistinctIds(Run(c, ease, e, events).resolutions)
    decreases |events|
  {
    if |events| > 0 {
      var first := Apply(c, ease, e, events[0]);
      ResolvedIsStale(c, ease, e, events[0]);
      EachTransitionResolvesAtMostOnce(c, ease, first.engine, events[1..]);
      var rest := Run(c, ease, first.engine, events[1..]).resolutions;
      if |first.resolutions| == 1 {
        var r := first.resolutions[0];
        StaleNeverResolves(c, ease, first.engine, r.workId, events[1..]);
        var all := first.resolutions + rest;
        forall i, j | 0 <= i < j < |all| ensures all[i].workId != all[j].workId {
          if i == 0 {
            assert all[j] == rest[j - 1];
            assert all[j] in rest;
          } else {
            assert all[i] == rest[i - 1] && all[j] == rest[j - 1];
          }
        }
      } else {
        assert first.resolutions + rest == rest;
      }
    }
  }

  /** The constructed service satisfies the engine invariant and has issued no id. */
  lemma InitialOk(c: Config, lastLux: Option<Lux>)
    ensures Inv(c, Initial(lastLux)) && IdsIssued(Initial(lastLux))
  {
  }

  /**
   * From the constructed service, any run keeps the engine invariant and
   * settles each transition's promise at most once.
   */
  lemma RunsFromInitial(c: Config, ease: real -> real, lastLux: Option<Lux>, events: seq<Event>)
    requires Valid(c) && LateWorkOk(c, events)
    ensures Inv(c, Run(c, ease, Initial(lastLux), events).engine)
    ensures DistinctIds(Run(c, ease, Initial(lastLux), events).resolutions)
  {
    InitialOk(c, lastLux);
    EachTransitionResolvesAtMostOnce(c, ease, Initial(lastLux), events);
  }

  /** n timer ticks in a row. */
  function Ticks(n: nat): (ts: seq<Event>)
    ensures |ts| == n
    ensures forall i | 0 <= i < n :: ts[i] == Tick
  {
    seq(n, _ => Tick)
  }

  /**
   * Fewer than stepCount - frame ticks leave a transition unresolved: its
   * work is still pending, k frames further on, under the same id.
   */
  lemma {:induction false} UnresolvedBeforeLastFrame(c: Config, ease: real -> real, e: Engine, k: nat)
    requires Valid(c) && Inv(c, e) && e.pending.Some?
    requires e.pending.value.frame + k < e.pending.value.stepCount
    ensures var w := e.pending.value;
            var t := Run(c, ease, e, Ticks(k));
            && t.resolutions == []
            && t.engine.workId == Some(w.id)
            && t.engine.pending.Some?
            && t.engine.pending.value.id == w.id
            && t.engine.pending.value.frame == w.frame + k
            && t.engine.pending.value.stepCount == w.stepCount
    decreases k
  {
    if k > 0 {
      var w := e.pending.value;
      var events := Ticks(k);
      var first := Apply(c, ease, e, Tick);
      assert events[0] == Tick;
      InvPreservedByEvent(c, ease, e, Tick);
      assert first.resolutions == [];
      var next := first.engine.pending.value;
      assert next.stepCount == w.stepCount && next.frame == w.frame + 1;
      assert next.id == w.id;
      assert events[1..] == Ticks(k - 1);
      UnresolvedBeforeLastFrame(c, ease, first.engine, k - 1);
    }
  }

  /**
   * A transition left alone resolves exactly once, on its last frame, after
   * exactly stepCount - frame ticks: one tick fewer leaves it still pending,
   * and the last tick resolves it and leaves nothing running.
   */
  lemma {:induction false} UninterruptedTransitionResolves(c: Config, ease: real -> real, e: Engine)
    requires Valid(c) && Inv(c, e) && e.pending.Some?
    ensures var w := e.pending.value;
            var t := Run(c, ease, e, Ticks(w.stepCount - w.frame));
            && t.resolutions == [Resolution(w.id, w.reply)]
            && t.engine.workId == None && t.engine.pending == None
    ensures var w := e.pending.value;
            var u := Run(c, ease, e, Ticks(w.stepCount - w.frame - 1));
            && u.resolutions == []
            && u.engine.pending.Some? && u.engine.pending.value.id == w.id
    decreases e.pending.value.stepCount - e.pending.value.frame
  {
    UnresolvedBeforeLastFrame(c, ease, e, e.pending.value.stepCount - e.pending.value.frame - 1);
    var w := e.pending.value;
    var n := w.stepCount - w.frame;
    var events := Ticks(n);
    var first := Apply(c, ease, e, Tick);
    assert events[0] == Tick;
    InvPreservedByEvent(c, ease, e, Tick);
    if w.frame + 1 < w.stepCount {
      assert first.resolutions == [];
      var next := first.engine.pending.value;
      assert next.stepCount == w.stepCount && next.frame == w.frame + 1;
      assert next.id == w.id && next.reply == w.reply;
      assert events[1..] == Ticks(n - 1);
      UninterruptedTransitionResolves(c, ease, first.engine);
    } else {
      assert n == 1;
      assert events[1..] == [];
    }
  }

  /** v lies between a and b, whichever is larger. */
  predicate Between(v: int, a: int, b: int) {
    (a <= v <= b) || (b <= v <= a)
  }

  /** A fraction m in [0, 1] of d lies between 0 and d. */
  lemma ScaledWithin(d: real, m: real)
    requires 0.0 <= m <= 1.0
    ensures d >= 0.0 ==> 0.0 <= d * m <= d
    ensures d < 0.0 ==> d <= d * m <= 0.0
  {
    if d >= 0.0 {
      MulNonNegative(d, 1.0 - m);
      MulNonNegative(d, m);
    } else {
      MulNonNegative(-d, 1.0 - m);
      MulNonNegative(-d, m);
    }
  }

  /** Interpolating from s by a fraction in [0, 1] of diff stays between s and s + diff. */
  lemma InterpolationBetween(s: real, diff: real, m: real, x: real)
    requires 0.0 <= m <= 1.0
    requires x == s + diff * m
    ensures (s <= x <= s + diff) || (s + diff <= x <= s)
  {
    ScaledWithin(diff, m);
  }

  /** A value between a start duty cycle and a target clamps to between the two clamped. */
  lemma ClampBetween(c: Config, start: int, x: real, target: real)
    requires 0 <= start <= c.pwmRange
    requires (start as real <= x <= target) || (target <= x <= start as real)
    ensures Between(ClampPwm(c, x), start, ClampPwm(c, target))
  {
    RoundOfInteger(start);
    if start as real <= x <= target {
      ClampPwmMonotone(c, start as real, x);
      ClampPwmMonotone(c, x, target);
    } else {
      ClampPwmMonotone(c, x, start as real);
      ClampPwmMonotone(c, target, x);
    }
  }

  /** For a multiplier in [0, 1], a frame value lies between the start and the clamped target. */
  lemma FrameValueBetween(c: Config, start: int, diff: real, m: real)
    requires 0 <= start <= c.pwmRange
    requires 0.0 <= m <= 1.0
    ensures Between(FrameValue(c, start, diff, m), start, ClampPwm(c, start as real + diff))
  {
    var x := start as real + diff * m;
    assert FrameValue(c, start, diff, m) == ClampPwm(c, x);
    InterpolationBetween(start as real, diff, m, x);
    ClampBetween(c, start, x, start as real + diff);
  }

  /**
   * With a well-formed easing, every value a frame writes lies in
   * [0, pwmRange] and between the start reading and the clamped target.
   */
  lemma FrameStaysBetweenStartAndTarget(c: Config, ease: real -> real, e: Engine, w: Work)
    requires EaseOk(ease) && WorkOk(c, w)
    ensures var s := Step(c, ease, e, w);
            && (s.writes.warm.Some? ==>
                  Between(s.writes.warm.value.Floor, w.startWarm,
                          ClampPwm(c, w.startWarm as real + w.diffWarm)))
            && (s.writes.cold.Some? ==>
                  Between(s.writes.cold.value.Floor, w.startCold,
                          ClampPwm(c, w.startCold as real + w.diffCold)))
  {
    var m := ease(Progress(w));
    FrameValueBetween(c, w.startWarm, w.diffWarm, m);
    FrameValueBetween(c, w.startCold, w.diffCold, m);
  }

  /**
   * The first frame writes the start reading of each moving channel, since
   * the easing is taken before t advances. With a step count of 1 it is also
   * the last frame: the transition resolves without writing the target.
   */
  lemma FirstFrameWritesStart(c: Config, ease: real -> real, e: Engine, w: Work)
    requires EaseOk(ease) && WorkOk(c, w)
    requires e.workId == Some(w.id)
    requires w.frame == 0 && w.lastWarm == None && w.lastCold == None
    ensures var s := Step(c, ease, e, w);
            && s.writes == Writes(if w.diffWarm != 0.0 then Some(w.startWarm as real) else None,
                                  if w.diffCold != 0.0 then Some(w.startCold as real) else None)
            && (w.stepCount == 1 ==> s.resolved == Some(Resolution(w.id, w.reply)))
  {
    assert Progress(w) == 0.0;
    RoundOfInteger(w.startWarm);
    RoundOfInteger(w.startCold);
    assert FrameValue(c, w.startWarm, w.diffWarm, 0.0) == w.startWarm;
    assert FrameValue(c, w.startCold, w.diffCold, 0.0) == w.startCold;
  }

  /** Repeating an instant request leaves the same state and the same answer. */
  lemma InstantRequestIsIdempotent(c: Config, e: Engine, lux: Lux)
    requires Valid(c) && IsInstant(lux)
    ensures SetLux(c, SetLux(c, e, lux).engine, lux) == SetLux(c, e, lux)
  {
  }

  /**
   * With a 3000..6000 range and a pwmRange of 3000, an instant request for
   * 4500 K at 50 % writes 750 to each channel: the midpoint splits the range
   * equally and the intensity halves each share.
   */
  lemma MidpointAtHalfIntensity(e: Engine)
    ensures var c := Config(3000, 6000, 3000, 16);
            var o := SetLux(c, e, Lux(Finite(4500.0), Finite(50.0), Some(0.0)));
            && o.result == Success(Resolved(LuxResponse(4500.0, 50.0, 0.0)))
            && o.engine.warm == Pwm(750.0) && o.engine.cold == Pwm(750.0)
  {
    var c := Config(3000, 6000, 3000, 16);
    RoundOfInteger(4500);
    assert ClampTemperature(c, 4500.0) == 4500;
    assert WarmShare(c, 4500) == 1500.0;
    RoundOfInteger(1500);
    assert PwmFromTemperature(c, 4500.0) == DutyPair(1500, 1500);
  }
}

=== FILE: wrappers.dfy ===
/** Option and Result, used for the source's `undefined` values and thrown errors. */
module Wrappers {

  datatype Option<+T> = None | Some(value: T)

  datatype Result<+T, +E> = Success(value: T) | Failure(error: E)
}
